=== FILE: README.md ===
# files_manager: a Dafny model of the request handlers

This project models the core of the files_manager back end. That back end is
an Express API over MongoDB (`users` and `files` collections), Redis (session
tokens) and a local content directory, plus a Bull worker that makes image
thumbnails. Every handler is a pure function of a store snapshot and a
request. The handlers that write (`Files.Upload`, `Files.PutPublish`,
`Auth.Connect`, `Auth.Disconnect`, `Users.PostNew`) return an `Outcome`: the
response and the next snapshot. The read-only handlers (`Files.GetFile`,
`Files.GetIndex`, `Files.GetShow`, `Users.GetMe`) return only a `Response`.
`Worker.MakeThumbnail` returns a `JobRun`: how the job settles and the list of
derivative writes, which `Worker.WriteAll` applies to the content directory.

The modules:

- `Store.State` holds four parts:
  - the `files` collection, keyed by identifier;
  - the `users` collection;
  - the Redis cache, as `auth_<token>` → session;
  - the content directory, as path → bytes.
- `Files` covers `fileUpload`, `getFile`, `getIndex`, `getShow`, `putPubUnpulish`, `isValidType` and `updateObjectKey`.
- `Worker` covers the `makeThumbnail` job processor.
- `Auth` covers `getConnect` and `getDisconnect`.
- `Users` covers `getMe` and `postNew`.
- `Scenarios` states properties that span several requests, such as upload then list, publish then fetch, register then log in, and upload then thumbnail.

Supporting modules:

- `Js` models JavaScript values and truthiness.
- `Text` models `split`/`join`, the last path segment and decimal rendering.
- `Ordering` models ascending identifier order, the minimum, rank, fresh identifiers and offset pagination.
- `Options` holds the option type.

Everything outside the model is a parameter:

- An `Oracles` value supplies base64 decoding, SHA-1 digests and image resizing. These are foreign library calls.
- Fresh uuids (file names and session tokens) and `process.env.FOLDER_PATH` are plain arguments.

New MongoDB identifiers are `Ordering.FreshId`: one more than the largest identifier in use. This is an assumption of the model: ObjectIds made by one driver process increase, so the model takes ascending `_id` order to be creation order. Across processes, within one second, or after the counter wraps, real ObjectIds need not increase.

A request that would throw before answering gives `Response.Unhandled` and changes nothing. The cases are:

- `Buffer.from` on a truthy number or boolean `data` for a non-folder;
- hashing a non-string or `undefined` password;
- a login header without a second word;
- `getFile` on a viewable non-folder that has no `localPath`, because `readFile(undefined, …)` throws. A well-formed store holds no such document.

An absent `X-Token` header reads as the cache key `auth_undefined`, because the source builds the key with a template literal.

The invariant `Store.Wf` holds four facts:

- folders carry no content path, and every other document has one;
- every content path is present in the content directory;
- every non-root parent is an existing folder;
- no two users share an email.

Uploading, publishing and registering keep it.

Three behaviours of the code that a reader might not expect, which the model follows:

- a file's bytes are written *before* its record is inserted, not after;
- the worker *returns* `Error` values instead of failing the job;
- an upload's parent folder is not required to belong to the caller.

## Model

| member | source | states |
|---|---|---|
| Files.IsValidType | controllers/FilesController.js:15-21 | a type is valid exactly when it is one of the strings "folder", "file", "image"; a non-string is never valid |
| Files.UpdateObjectKey | controllers/FilesController.js:33-44 | the copy has no `from` key; `to` holds `newValue` when it is truthy, otherwise the old value of `from`; every other key and value is unchanged |
| Files.UpdateObjectKeySameKey | controllers/FilesController.js:37-42 | renaming a key onto itself deletes it, because the delete runs after the write |
| Files.UpdateObjectKeyRoundTrip | controllers/FilesController.js:33-44 | renaming `from` to `to` and back, with a null value, restores the original object when `to` was unused |
| Files.Stored | controllers/FilesController.js:81-120 | a stored document object has exactly the keys `_id`, `parentId`, `isPublic`, `userId`, `type` and `name`, plus `localPath` for a non-folder; `parentId` is the string "0" at the root and the parent's ObjectId otherwise, and every other key holds the document's own value |
| Files.PublicView | controllers/FilesController.js:211-212 | the API view has exactly the stored document's keys with `_id` renamed to `id`, and every value unchanged |
| Files.UploadRejection | controllers/FilesController.js:53-79 | each error answer (401, "Missing name", "Missing type", "Missing data", "Parent not found", "Parent is not a folder") is given exactly when that check is the first to fail, in the source's order; no error exactly when every check passes |
| Files.NewDoc | controllers/FilesController.js:81-120 | the new record is owned by the caller, keeps the request's name and type, has the given parent or the root, is private unless `isPublic` is truthy, and non-folders point at `<FOLDER_PATH or /tmp/files_manager>/<uuid>` |
| Files.Upload | controllers/FilesController.js:52-128 | no 201 means nothing changed; an unauthenticated caller gets 401; a request that fails a check answers exactly the error `UploadRejection` names ("Missing name", "Missing type", "Missing data", "Parent not found" or "Parent is not a folder") and changes nothing; a non-folder that passes every check but whose `data` is not a string throws, because `Buffer.from` does, and changes nothing; 201 comes exactly when every check passes and `data` is a string or the type is folder; after 201 the record is added under a fresh identifier, non-folder bytes are stored at its path, and the answer is its public view |
| Files.UploadAccepted | controllers/FilesController.js:91-128 | the state after an accepted upload is the old state plus the new record, plus the decoded bytes for a non-folder |
| Files.UploadPreservesWf | controllers/FilesController.js:69-128 | an upload keeps the store invariant: kinds match content, stored paths have bytes, parents are folders |
| Files.UploadListedLast | controllers/FilesController.js:206-208 | after an accepted upload, the owner's listing under that parent is the old listing with the new identifier appended |
| Files.InsertPreservesWf | controllers/FilesController.js:120-122 | adding a document under a fresh identifier keeps the invariant when its parent is a folder, its kind matches its content and its bytes are present |
| Files.GetFile | controllers/FilesController.js:148-178 | a missing document, or one the caller may not view, answers 404; a viewable folder answers 400; 200 comes exactly for a viewable non-folder whose bytes exist, and carries those bytes; a viewable non-folder whose path holds no bytes answers 404, as the failed read does; a viewable non-folder with no content path throws, because `readFile(undefined)` does |
| Files.GetFileAnswers | controllers/FilesController.js:148-178 | in a well-formed store `getFile` always answers, and a viewable non-folder is always served with its bytes |
| Files.GetFileHidesExistence | controllers/FilesController.js:156-165 | a document the caller may not view answers exactly as if it were absent |
| Files.Listing | controllers/FilesController.js:206-208 | the listing holds exactly the owner's documents under the parent, in strictly ascending identifier order |
| Files.GetIndex | controllers/FilesController.js:197-216 | 401 exactly when unauthenticated; otherwise at most 20 items, each the public view of one of the caller's documents; a page past the end is empty |
| Files.GetIndexItem | controllers/FilesController.js:206-213 | item k of page p is the caller's document under the parent whose rank among those documents is 20·p + k |
| Files.GetIndexIncludes | controllers/FilesController.js:206-213 | every document of the caller under the parent whose rank lies in [20·p, 20·p + 20) appears on page p at offset rank − 20·p |
| Files.GetShow | controllers/FilesController.js:230-250 | unauthenticated gives 401; 200 comes exactly when the caller owns the document and carries its public view; an authenticated caller who does not own it, or asks for a missing one, gets 404 |
| Files.GetShowIgnoresVisibility | controllers/FilesController.js:235-248 | changing a document's `isPublic` never changes whether `getShow` finds it |
| Files.PutPublish | controllers/FilesController.js:264-292 | unauthenticated gives 401 and a document the caller does not own gives 404, both with no change; on 200 only that document changes, its `isPublic` becomes whether the last path segment is "publish", and the answer is its updated view |
| Files.PutPublishIdempotent | controllers/FilesController.js:278-290 | publishing or unpublishing twice leaves the same store as doing it once |
| Files.RouteEndpoints | controllers/FilesController.js:269-270 | the last `/` segment of `…/publish` is "publish" and of `…/unpublish` is "unpublish" |
| Files.PutPublishVisibility | controllers/FilesController.js:264-292 | after publish everyone may view the document; after unpublish only its owner may |
| Files.PutPublishSets | controllers/FilesController.js:264-292 | the owner's request stores `isPublic` as whether the path's last segment is `publish`, and keeps every other field |
| Files.PutPublishKeepsOwner | controllers/FilesController.js:271-290 | publishing never removes a document or changes its owner |
| Files.PutPublishPreservesWf | controllers/FilesController.js:286-290 | publishing keeps the store invariant |
| Worker.Resize | worker.js:52-70 | a derivative `<path>_<width>` holding the resized bytes is written for exactly the widths whose resize succeeds; all widths are covered, in width order, exactly when every resize succeeds; a missing source writes nothing |
| Worker.ResizeByWidth | worker.js:52-70 | every width whose resize succeeds has its derivative written with the resized bytes, and all widths are written exactly when every resize succeeds |
| Worker.MakeThumbnail | worker.js:29-71 | a missing userId gives "Missing userId"; a missing fileId gives "Missing fieldId"; a file that is absent or not owned by that user gives "File not found"; all these write nothing; resolving with null means exactly the 500, 250 and 100 derivatives were written next to the source; every derivative written holds the source resized to its width; for a found, owned file every width whose resize succeeds is written even when another fails, and the job rejects exactly when some resize fails; a file without stored content rejects and writes nothing |
| Worker.StoredImageGetsThumbnails | worker.js:29-71 | a job naming an image its owner stored, whose every resize succeeds, resolves with null after writing `<path>_500`, `<path>_250` and `<path>_100` in that order |
| Worker.WriteAll | worker.js:60-65 | writing derivatives keeps every old path, adds each derivative's path, adds nothing else, and leaves untouched paths' bytes alone |
| Worker.WriteAllLastWins | worker.js:60-65 | a path holds the bytes of the last write to it |
| Worker.RunWritesDerivatives | worker.js:52-70 | after a run every derivative path holds the source image resized to that derivative's width |
| Worker.DerivativePathsDistinct | worker.js:56 | the three derivative paths differ from each other and from the source path |
| Worker.WritesNeverTouchSource | worker.js:52-70 | no derivative is written to the source image's path |
| Worker.RunKeepsSource | worker.js:56-65 | after a run the source image's bytes are unchanged |
| Auth.DecodeHeaderIgnoresScheme | controllers/AuthController.js:13-15 | whatever the scheme word, `<scheme> <encoded>` decodes `encoded` |
| Auth.ParseCredentialsOf | controllers/AuthController.js:16 | as written, `email:password` yields that email and password; anything after a second ':' is dropped; text without ':' yields nothing |
| Auth.ParseCredentialsCorrectedRoundTrip | controllers/AuthController.js:16 | the corrected parser recovers any password, colons included, from `email:password` |
| Auth.ColonPasswordTruncated | controllers/AuthController.js:16 | "e:p:q" yields password "p" as written, and "p:q" with the corrected parser |
| Auth.FindUser | controllers/AuthController.js:17-20 | a user is found exactly when one has that email and password digest, and the one found does |
| Auth.Connect | controllers/AuthController.js:5-30 | a missing or empty header gives 401; a header without a second word, or credentials without a ':', is an unhandled error; credentials that parse but name nobody give 401; only a success changes state; success comes exactly when the credentials name a user, and it adds exactly the session `auth_<token>` for that user for 86400 seconds |
| Auth.ConnectCorrected | controllers/AuthController.js:5-30 | the same as `Auth.Connect`, with the RFC 7617 credential split: a missing or empty header answers 401, malformed credentials throw, unknown credentials answer 401, and success stores the session |
| Auth.ConnectThenResolve | controllers/AuthController.js:26-28 | after a login the new token resolves to the user the credentials name |
| Auth.Disconnect | controllers/AuthController.js:33-45 | an unknown token, or one whose user is gone, gives 401 and changes nothing; 204 comes exactly when the token resolves, and removes only that session; afterwards the token resolves to nobody |
| Auth.DisconnectUndoesConnect | controllers/AuthController.js:33-45 | logging out right after logging in restores the cache |
| Auth.Expire | controllers/AuthController.js:28 | expiry removes exactly that one cache key and leaves the rest of the store alone |
| Auth.ExpiredSessionUnauthenticated | controllers/AuthController.js:28 | an expired token resolves to nobody |
| Users.GetMe | controllers/UsersController.js:13-28 | 401 exactly when the token does not resolve to an existing user; otherwise the answer is that user's id and email |
| Scenarios.LoginThenMe | controllers/UsersController.js:13-28 | after a successful login, `/users/me` with the new token answers the logged-in user's id and the email given in the credentials |
| Scenarios.LogoutThenMe | controllers/AuthController.js:33-45 | after a successful logout, `/users/me` with the same token, which answered 200 before, answers 401 |
| Users.PostNew | controllers/UsersController.js:43-74 | "Missing email", "Missing password" and "Already exist" are checked in that order; a truthy non-string password for an unused email throws, because hashing it does; any non-201 answer changes nothing; 201 comes exactly for a truthy email, a non-empty string password and an unused email, and stores the email with the password's digest under a fresh identifier |
| Users.PostNewPreservesWf | controllers/UsersController.js:56-70 | registration keeps emails unique, together with the rest of the invariant |
| Users.PostNewTwice | controllers/UsersController.js:56-60 | registering the same email right after a success answers "Already exist" and changes nothing |
| Store.ResolveUser | controllers/UsersController.js:14-24 | a token resolves exactly when `auth_<token>` is cached and names an existing user |
| Ordering.SortedIds | controllers/FilesController.js:208 | the sort holds exactly the set's elements, strictly ascending |
| Ordering.AscendingIsSortedIds | controllers/FilesController.js:208 | any strictly ascending enumeration of a set is its sort, so the order is unique |
| Ordering.SortedIdsRank | controllers/FilesController.js:208-210 | position k of the sort holds the element with exactly k smaller elements |
| Ordering.PageItemRank | controllers/FilesController.js:208-210 | item k of page p of the sorted identifiers belongs to the set and has rank 20·p + k |
| Ordering.RankOnPage | controllers/FilesController.js:208-210 | an identifier whose rank lies in [20·p, 20·p + 20) is on page p at offset rank − 20·p |
| Ordering.FreshId | controllers/FilesController.js:121-122 | a new identifier is unused and larger than every identifier in use |
| Ordering.Paginate | controllers/FilesController.js:209-210 | a page has at most 20 items, is empty past the end, has the expected length, and item k is item 20·page + k of the listing |
| Ordering.FirstPagesArePrefix | controllers/FilesController.js:209-210 | the first n pages laid end to end are exactly the first 20·n items, with nothing skipped or repeated |
| Ordering.ItemOnPage | controllers/FilesController.js:209-210 | item i is on page i / 20 at offset i % 20 |
| Text.JoinSplit | controllers/AuthController.js:16 | the pieces of a split contain no separator, and joining them restores the text |
| Text.SplitJoin | controllers/AuthController.js:16 | splitting separator-free pieces joined by the separator gives back the pieces |
| Text.LastPieceOf | controllers/FilesController.js:269-270 | the last piece after a separator is the text after the last separator |
| Scenarios.FreshFolderIsEmpty | controllers/FilesController.js:206-208 | a folder that was just created lists nothing under it, for any owner |
| Scenarios.CreateEmptyFolder | controllers/FilesController.js:92-95 | creating a root folder stores a folder under the fresh identifier with an empty listing |
| Scenarios.FileIntoEmptyFolder | controllers/FilesController.js:101-128 | a file uploaded into an empty folder is the folder's only entry on page 0 |
| Scenarios.FolderThenFileListing | controllers/FilesController.js:52-128 | creating folder "docs" and then uploading "report.txt" into it lists exactly that file |
| Scenarios.PublishedIsServed | controllers/FilesController.js:160-165 | once published, a document with content is served to any caller |
| Scenarios.PublishRevealsToOthers | controllers/FilesController.js:160-165 | a private image is 404 to another user until its owner publishes it, and then its bytes are returned |
| Scenarios.RegisteredUserFound | controllers/AuthController.js:17-20 | right after registering an unused email, a lookup by that email finds the new user exactly when the digest is the registered password's |
| Scenarios.RegisterThenLogin | controllers/AuthController.js:5-30 | with the corrected parser, a freshly registered user logs in with the registered email and password, and the token resolves to that user |
| Scenarios.ColonPasswordLocksOut | controllers/AuthController.js:16 | as written, a user whose password contains ':' gets 401 on every login with the right password |
| Scenarios.UploadedImageGetsThumbnails | worker.js:29-71 | an uploaded image, queued with its owner and identifier, yields the 500, 250 and 100 derivatives when every resize succeeds |

## Left out

- Network I/O, the HTTP framework, the route tables, `server.js` and `AppController` are outside the handlers' logic.
- `shared/index.js` is not part of this model. It holds `getUserFromToken`, `dbUtils`, `cache` and `createHash`. `getUserFromToken` is assumed to resolve a token the same two-step way `getMe` does: the cached session, then the user. `dbUtils.getUserByCred` is modelled as the lowest matching identifier.
- Asynchronous callbacks that answer twice are not modelled. Examples are `getFile` after a read error, and a failing `mkdir` callback in `fileUpload`.
- Database and filesystem failures are not modelled: no 500 answers and no failing `insertOne` or `writeFile`. Each step is assumed to succeed.
- JSON arrays, objects and non-integer numbers in request fields are not modelled: `Js.Value` has no case for them. In particular an array `data` (or a serialised `Buffer`), which `Buffer.from` accepts, is outside the model.
- Invalid ObjectId strings (which make `new ObjectId` throw) are not modelled. Identifiers in requests are already numbers or absent.
- A `page` query that is not a natural number (NaN, negative) is not modelled. `page` is a `nat`.
- `path.join` normalisation of `..` and repeated separators is not modelled. `JoinPath` only adds one `/`.
- The MIME type `getFile` sets from the file name is not modelled, because it is a foreign library lookup.
- Base64, SHA-1, uuid generation and image resizing are parameters, not implementations.
- The Redis time to live is the explicit `Auth.Expire` step, not a clock.
- Concurrency between requests, and between the worker's three resize promises, is not modelled. Requests run one at a time. A run writes every derivative whose resize succeeded, in width order.
- The Bull queue's event logging and retries, and everything that only logs, are not modelled.
- Identifiers are numbers. The ObjectId text rendering `getMe` and the session cache use (`toString()`) is not modelled, because an identifier and its text stand for each other one to one.
- The 201 answer carries the inserted `_id` because the driver adds it to the inserted object. The model simply uses the fresh identifier.

## Findings

| source | as written | input that shows it | evidently intended | confidence | as-written member | corrected member |
|---|---|---|---|---|---|---|
| controllers/AuthController.js:16 | `authorization.split(':')` keeps only the text between the first and second ':' as the password | register `e` with password `p:q`, then log in with `Basic base64("e:p:q")`: the digest of `p` is looked up and the answer is 401 | the password is everything after the first ':' (section 2 of RFC 7617), so a password with ':' can log in | high, not executed | Scenarios.ColonPasswordLocksOut | Scenarios.RegisterThenLogin |

=== FILE: auth.dfy ===
/** The auth controller: log in with Basic credentials, log out by token. */
module Auth {
  import Js
  import Text
  import opened Options
  import opened Ordering
  import opened Store

  /** The decoded credentials inside an `Authorization` header: the second
      space-separated word, base64-decoded. The scheme word is not checked.
      `None` when there is no second word (decoding `undefined` throws). */
  function DecodeHeader(o: Oracles, header: string): Option<string> {
    var words := Text.Split(header, ' ');
    if |words| < 2 then None else Some(o.base64Text(words[1]))
  }

  /** Whatever the scheme word, a header `<scheme> <encoded>` decodes `encoded`. */
  lemma DecodeHeaderIgnoresScheme(o: Oracles, scheme: string, encoded: string)
    requires ' ' !in scheme && ' ' !in encoded
    ensures DecodeHeader(o, scheme + " " + encoded) == Some(o.base64Text(encoded))
  {
    assert scheme + " " + encoded == scheme + [' '] + encoded;
    Text.SplitAround(scheme, ' ', encoded);
  }

  /** `const [email, password] = decoded.split(':')`: the text before the
      first ':' and the text between the first and second ':'. `None` when
      there is no ':' (the password is `undefined` and hashing it throws). */
  function ParseCredentials(decoded: string): Option<(string, string)> {
    var parts := Text.Split(decoded, ':');
    if |parts| < 2 then None else Some((parts[0], parts[1]))
  }

  /** What `ParseCredentials` extracts: the email before the first ':', and
      the password up to the next ':' (anything after it is dropped); no ':'
      at all gives nothing. */
  lemma ParseCredentialsOf(email: string, password: string, rest: string)
    requires ':' !in email && ':' !in password
    ensures ParseCredentials(email + ":" + password) == Some((email, password))
    ensures ParseCredentials(email + ":" + password + ":" + rest) == Some((email, password))
    ensures ParseCredentials(email) == None
  {
    assert email + ":" + password == email + [':'] + password;
    Text.SplitAround(email, ':', password);
    assert email + ":" + password + ":" + rest == email + [':'] + (password + [':'] + rest);
    Text.SplitAround(email, ':', password + [':'] + rest);
    Text.SplitAround(password, ':', rest);
  }

  /** The credentials as Basic authentication defines them (section 2 of
      RFC 7617): the user-id before the first ':', and the whole remainder,
      colons included, as the password. */
  function ParseCredentialsCorrected(decoded: string): Option<(string, string)> {
    if ':' !in decoded then None
    else
      var i := Text.IndexOf(decoded, ':');
      Some((decoded[..i], decoded[i + 1..]))
  }

  /** The corrected parser recovers any password from `email:password`. */
  lemma ParseCredentialsCorrectedRoundTrip(email: string, password: string)
    requires ':' !in email
    ensures ParseCredentialsCorrected(email + ":" + password) == Some((email, password))
  {
    var s := email + ":" + password;
    assert s == email + [':'] + password;
    Text.IndexOfAfterPrefix(email, ':', password);
    assert s[..|email|] == email;
    assert s[|email| + 1..] == password;
  }

  /** A password with a ':' is cut short by the parser as written. */
  lemma ColonPasswordTruncated()
    ensures ParseCredentials("e:p:q") == Some(("e", "p"))
    ensures ParseCredentialsCorrected("e:p:q") == Some(("e", "p:q"))
  {
    assert ':' !in "e" && ':' !in "p";
    ParseCredentialsOf("e", "p", "q");
    assert "e" + ":" + "p" + ":" + "q" == "e:p:q";
    ParseCredentialsCorrectedRoundTrip("e", "p:q");
    assert "e" + ":" + "p:q" == "e:p:q";
  }

  /** The user `getUserByCred({ email, password })` returns: one whose email
      and password digest both match (the lowest identifier if several do). */
  function FindUser(users: map<nat, User>, email: string, digest: string): (u: Option<nat>)
    ensures u.Some? <==> exists id :: id in users && users[id].email == Js.Str(email) && users[id].password == digest
    ensures u.Some? ==> u.value in users && users[u.value].email == Js.Str(email) && users[u.value].password == digest
  {
    var matches := set id | id in users && users[id].email == Js.Str(email) && users[id].password == digest;
    if matches == {} then
      assert forall id :: id in users && users[id].email == Js.Str(email) && users[id].password == digest ==> id in matches;
      None
    else
      Some(Min(matches))
  }

  /** `getConnect` with a given credential parser; `token` is the fresh uuid. */
  function ConnectWith(st: State, o: Oracles, header: Option<string>, token: string,
                       parse: string -> Option<(string, string)>): Outcome
  {
    if header.None? || header.value == "" then Outcome(Unauthorized, st)
    else match DecodeHeader(o, header.value)
      case None => Outcome(Unhandled, st)
      case Some(decoded) =>
        match parse(decoded)
        case None => Outcome(Unhandled, st)
        case Some((email, password)) =>
          match FindUser(st.users, email, o.sha1(password))
          case None => Outcome(Unauthorized, st)
          case Some(uid) =>
            Outcome(Sent(200, TokenInfo(token)),
                    st.(cache := st.cache[SessionKey(token) := Session(uid, SessionTtl)]))
  }

  /** The user a header's credentials name, if its credentials parse and match. */
  function CredentialUser(st: State, o: Oracles, header: string,
                          parse: string -> Option<(string, string)>): Option<nat> {
    match DecodeHeader(o, header)
    case None => None
    case Some(decoded) =>
      match parse(decoded)
      case None => None
      case Some((email, password)) => FindUser(st.users, email, o.sha1(password))
  }

  /** `getConnect`: a missing header or unknown credentials answer 401 and
      change nothing; known credentials add the one session `auth_<token>`
      for one day and answer with the bare token. */
  function Connect(st: State, o: Oracles, header: Option<string>, token: string): (out: Outcome)
    ensures header.None? || header == Some("") ==> out == Outcome(Unauthorized, st)
    ensures out.response != Sent(200, TokenInfo(token)) ==> out.state == st
    ensures out.response == Sent(200, TokenInfo(token)) <==>
              header.Some? && header.value != "" && CredentialUser(st, o, header.value, ParseCredentials).Some?
    ensures header.Some? && header.value != "" ==>
              (out.response == Unhandled <==>
                 DecodeHeader(o, header.value).None? || ParseCredentials(DecodeHeader(o, header.value).value).None?)
    ensures header.Some? && header.value != "" && DecodeHeader(o, header.value).Some?
            && ParseCredentials(DecodeHeader(o, header.value).value).Some?
            && CredentialUser(st, o, header.value, ParseCredentials).None?
            ==> out == Outcome(Unauthorized, st)
    ensures out.response == Sent(200, TokenInfo(token)) ==>
              var uid := CredentialUser(st, o, header.value, ParseCredentials).value;
              && uid in st.users
              && out.state == st.(cache := st.cache[SessionKey(token) := Session(uid, SessionTtl)])
  {
    ConnectWith(st, o, header, token, ParseCredentials)
  }

  /** `getConnect` with the corrected credential parser. */
  function ConnectCorrected(st: State, o: Oracles, header: Option<string>, token: string): (out: Outcome)
    ensures header.None? || header == Some("") ==> out == Outcome(Unauthorized, st)
    ensures out.response != Sent(200, TokenInfo(token)) ==> out.state == st
    ensures out.response == Sent(200, TokenInfo(token)) <==>
              header.Some? && header.value != "" && CredentialUser(st, o, header.value, ParseCredentialsCorrected).Some?
    ensures header.Some? && header.value != "" ==>
              (out.response == Unhandled <==>
                 DecodeHeader(o, header.value).None? || ParseCredentialsCorrected(DecodeHeader(o, header.value).value).None?)
    ensures header.Some? && header.value != "" && DecodeHeader(o, header.value).Some?
            && ParseCredentialsCorrected(DecodeHeader(o, header.value).value).Some?
            && CredentialUser(st, o, header.value, ParseCredentialsCorrected).None?
            ==> out == Outcome(Unauthorized, st)
    ensures out.response == Sent(200, TokenInfo(token)) ==>
              var uid := CredentialUser(st, o, header.value, ParseCredentialsCorrected).value;
              && uid in st.users
              && out.state == st.(cache := st.cache[SessionKey(token) := Session(uid, SessionTtl)])
  {
    ConnectWith(st, o, header, token, ParseCredentialsCorrected)
  }

  /** `getDisconnect`: removes the session only when its token maps to a
      user that still exists; otherwise 401 and nothing is removed. */
  function Disconnect(st: State, token: Option<string>): (out: Outcome)
    ensures HeaderKey(token) !in st.cache ==> out == Outcome(Unauthorized, st)
    ensures HeaderKey(token) in st.cache && st.cache[HeaderKey(token)].userId !in st.users
            ==> out == Outcome(Unauthorized, st)
    ensures out.response == Sent(204, Empty) <==> ResolveUser(st, token).Some?
    ensures out.response == Sent(204, Empty) ==>
              out.state == st.(cache := st.cache - {HeaderKey(token)})
    ensures ResolveUser(out.state, token).None?
  {
    var key := HeaderKey(token);
    if key !in st.cache then Outcome(Unauthorized, st)
    else if st.cache[key].userId !in st.users then Outcome(Unauthorized, st)
    else Outcome(Sent(204, Empty), st.(cache := st.cache - {key}))
  }

  /** The cache dropping a key once its time to live has run out. */
  function Expire(st: State, key: string): (after: State)
    ensures after.cache.Keys == st.cache.Keys - {key}
    ensures forall k :: k in after.cache ==> after.cache[k] == st.cache[k]
    ensures after.files == st.files && after.users == st.users && after.content == st.content
  {
    st.(cache := st.cache - {key})
  }

  /** After a successful login the token resolves to the logged-in user. */
  lemma ConnectThenResolve(st: State, o: Oracles, header: Option<string>, token: string)
    requires Connect(st, o, header, token).response == Sent(200, TokenInfo(token))
    ensures ResolveUser(Connect(st, o, header, token).state, Some(token))
            == CredentialUser(st, o, header.value, ParseCredentials)
  {
  }

  /** Logging out right after logging in restores the cache, when the token
      was not in use before. */
  lemma DisconnectUndoesConnect(st: State, o: Oracles, header: Option<string>, token: string)
    requires SessionKey(token) !in st.cache
    requires Connect(st, o, header, token).response == Sent(200, TokenInfo(token))
    ensures Disconnect(Connect(st, o, header, token).state, Some(token)) == Outcome(Sent(204, Empty), st)
  {
    var after := Connect(st, o, header, token).state;
    assert after.cache - {SessionKey(token)} == st.cache;
  }

  /** An expired session no longer authenticates. */
  lemma ExpiredSessionUnauthenticated(st: State, token: Option<string>)
    ensures ResolveUser(Expire(st, HeaderKey(token)), token).None?
  {
  }
}

=== FILE: files.dfy ===
/**
 * The file-metadata controller: upload, content fetch, owner-scoped listing,
 * owner-only show and publish/unpublish, over the `files` collection and the
 * content directory.
 */
module Files {
  import Js
  import Text
  import opened Options
  import opened Ordering
  import opened Store

  // ---------------------------------------------------------------------
  // Helpers

  /** The document kind a request's `type` field names, if any. */
  function ParseType(v: Js.Value): (t: Option<DocType>)
    ensures t.Some? ==> v == Js.Str(TypeName(t.value))
    ensures forall d: DocType :: v == Js.Str(TypeName(d)) ==> t == Some(d)
  {
    match v
    case Str(s) =>
      if s == "folder" then Some(Folder)
      else if s == "file" then Some(File)
      else if s == "image" then Some(Image)
      else None
    case _ => None
  }

  /** `isValidType`: the value is one of the strings "folder", "file" or
      "image"; anything that is not a string is rejected. */
  function IsValidType(v: Js.Value): (ok: bool)
    ensures ok <==> exists t: DocType :: v == Js.Str(TypeName(t))
    ensures !v.Str? ==> !ok
  {
    var t := ParseType(v);
    if t.Some? then
      assert v == Js.Str(TypeName(t.value));
      true
    else
      false
  }

  /** `updateObjectKey`: a copy of `obj` in which key `to` holds `newValue`
      when that is truthy, otherwise the old value under `from`, and `from`
      is gone. The argument is a value, so it is never mutated. */
  function UpdateObjectKey(obj: Js.Object, from: string, to: string, newValue: Js.Value): (data: Js.Object)
    ensures from !in data
    ensures from != to ==> to in data && data[to] == (if Js.Truthy(newValue) then newValue else Js.Get(obj, from))
    ensures forall k :: k != from && k != to ==> (k in data <==> k in obj)
    ensures forall k :: k != from && k != to && k in data ==> data[k] == obj[k]
  {
    var moved := if Js.Truthy(newValue) then newValue else Js.Get(obj, from);
    obj[to := moved] - {from}
  }

  /** Renaming a key onto itself deletes it. */
  lemma UpdateObjectKeySameKey(obj: Js.Object, key: string, newValue: Js.Value)
    ensures UpdateObjectKey(obj, key, key, newValue) == obj - {key}
  {
  }

  /** Renaming a key and renaming it back restores the object. */
  lemma UpdateObjectKeyRoundTrip(obj: Js.Object, from: string, to: string)
    requires from in obj && to !in obj
    ensures UpdateObjectKey(UpdateObjectKey(obj, from, to, Js.Null), to, from, Js.Null) == obj
  {
    var once := UpdateObjectKey(obj, from, to, Js.Null);
    var twice := UpdateObjectKey(once, to, from, Js.Null);
    assert twice.Keys == obj.Keys;
  }

  /** How a stored document records its parent: the string "0" at the root,
      the parent's ObjectId otherwise. */
  function ParentValue(parent: ParentRef): Js.Value {
    match parent
    case Root => Js.Str("0")
    case Parent(p) => Js.Id(p)
  }

  /** `o` records document `d` with identifier `id` under `idKey`: exactly the
      identifier, `parentId`, `isPublic`, `userId`, `type` and `name`, plus
      `localPath` for a document that has one. */
  predicate Describes(o: Js.Object, idKey: string, id: nat, d: Doc) {
    && o.Keys == {idKey, "parentId", "isPublic", "userId", "type", "name"}
                 + (if d.localPath.Some? then {"localPath"} else {})
    && idKey in o && o[idKey] == Js.Id(id)
    && "parentId" in o && o["parentId"] == ParentValue(d.parentId)
    && "isPublic" in o && o["isPublic"] == d.isPublic
    && "userId" in o && o["userId"] == Js.Id(d.userId)
    && "type" in o && o["type"] == Js.Str(TypeName(d.docType))
    && "name" in o && o["name"] == d.name
    && (d.localPath.Some? ==> "localPath" in o && o["localPath"] == Js.Str(d.localPath.value))
  }

  /** A stored document as an object, with the store key under `_id`. */
  function Stored(id: nat, d: Doc): (o: Js.Object)
    ensures Describes(o, "_id", id, d)
  {
    var o := map[
      "_id" := Js.Id(id),
      "parentId" := ParentValue(d.parentId),
      "isPublic" := d.isPublic,
      "userId" := Js.Id(d.userId),
      "type" := Js.Str(TypeName(d.docType)),
      "name" := d.name];
    match d.localPath
    case None => o
    case Some(p) => o["localPath" := Js.Str(p)]
  }

  /** A document as the API shows it: `_id` renamed to `id`
      (`updateObjectKey` with its default key, or `$addFields` + `$unset`). */
  function PublicView(id: nat, d: Doc): (o: Js.Object)
    ensures "_id" !in o
    ensures Describes(o, "id", id, d)
  {
    var stored := Stored(id, d);
    assert UpdateObjectKey(stored, "_id", "id", Js.Null) == stored["id" := Js.Id(id)] - {"_id"};
    UpdateObjectKey(stored, "_id", "id", Js.Null)
  }

  // ---------------------------------------------------------------------
  // POST /files

  /** The body of an upload. `parentId` is `None` when the field is absent or
      falsy; a present one is an ObjectId. */
  datatype UploadRequest = UploadRequest(
    name: Js.Value,
    docType: Js.Value,
    parentId: Option<nat>,
    isPublic: Js.Value,
    data: Js.Value)

  /** `process.env.FOLDER_PATH || '/tmp/files_manager'`. */
  function FolderRoot(env: string): (root: string)
    ensures root != ""
  {
    if env != "" then env else "/tmp/files_manager"
  }

  /** `path.join(dir, name)` for a directory and a single file name
      (no `..` or repeated separators). */
  function JoinPath(dir: string, name: string): string {
    if dir != [] && dir[|dir| - 1] == '/' then dir + name else dir + "/" + name
  }

  /** The parent a request names: the given folder, or the root when absent. */
  function ParentOf(parentId: Option<nat>): ParentRef {
    if parentId.Some? then Parent(parentId.value) else Root
  }

  /** The first upload check that fails, in the order the controller tests
      them, or `None` when the upload is accepted. */
  function UploadRejection(st: State, user: Option<nat>, req: UploadRequest): (r: Option<Response>)
    ensures r == Some(Unauthorized) <==> user.None?
    ensures r == Some(Fail(400, "Missing name")) <==> user.Some? && !Js.Truthy(req.name)
    ensures r == Some(Fail(400, "Missing type")) <==>
              user.Some? && Js.Truthy(req.name) && !IsValidType(req.docType)
    ensures r == Some(Fail(400, "Missing data")) <==>
              user.Some? && Js.Truthy(req.name) && IsValidType(req.docType)
              && !Js.Truthy(req.data) && req.docType != Js.Str("folder")
    ensures r == Some(Fail(400, "Parent not found")) <==>
              user.Some? && Js.Truthy(req.name) && IsValidType(req.docType)
              && (Js.Truthy(req.data) || req.docType == Js.Str("folder"))
              && req.parentId.Some? && req.parentId.value !in st.files
    ensures r == Some(Fail(400, "Parent is not a folder")) <==>
              user.Some? && Js.Truthy(req.name) && IsValidType(req.docType)
              && (Js.Truthy(req.data) || req.docType == Js.Str("folder"))
              && req.parentId.Some? && req.parentId.value in st.files
              && st.files[req.parentId.value].docType != Folder
    ensures r.None? <==>
              user.Some? && Js.Truthy(req.name) && ParseType(req.docType).Some?
              && (Js.Truthy(req.data) || req.docType == Js.Str("folder"))
              && (req.parentId.Some? ==> req.parentId.value in st.files && st.files[req.parentId.value].docType == Folder)
  {
    if user.None? then Some(Unauthorized)
    else if !Js.Truthy(req.name) then Some(Fail(400, "Missing name"))
    else if !Js.Truthy(req.docType) || !IsValidType(req.docType) then Some(Fail(400, "Missing type"))
    else if !Js.Truthy(req.data) && req.docType != Js.Str("folder") then Some(Fail(400, "Missing data"))
    else if req.parentId.Some? && req.parentId.value !in st.files then Some(Fail(400, "Parent not found"))
    else if req.parentId.Some? && st.files[req.parentId.value].docType != Folder then Some(Fail(400, "Parent is not a folder"))
    else None
  }

  /** Records a new document under a fresh identifier and answers 201 with it. */
  function InsertDoc(st: State, d: Doc): Outcome {
    var id := FreshId(st.files);
    Outcome(Sent(201, Record(PublicView(id, d))), st.(files := st.files[id := d]))
  }

  /** The record an accepted upload stores: owned by the caller, under the
      given parent or the root, private unless `isPublic` is truthy, and, for
      anything but a folder, pointing at `<folder root>/<fileName>`. */
  function NewDoc(st: State, token: Option<string>, req: UploadRequest, env: string, fileName: string): (d: Doc)
    requires ResolveUser(st, token).Some? && ParseType(req.docType).Some?
    ensures d.userId == ResolveUser(st, token).value
    ensures d.name == req.name && Js.Str(TypeName(d.docType)) == req.docType
    ensures d.parentId == (ParentOf(req.parentId))
    ensures d.isPublic == (if Js.Truthy(req.isPublic) then req.isPublic else Js.Bool(false))
    ensures Js.Truthy(d.isPublic) <==> Js.Truthy(req.isPublic)
    ensures d.localPath.None? <==> d.docType == Folder
    ensures d.localPath.Some? ==> d.localPath.value == JoinPath(FolderRoot(env), fileName)
  {
    var t := ParseType(req.docType).value;
    Doc(
      ResolveUser(st, token).value,
      req.name,
      t,
      ParentOf(req.parentId),
      if Js.Truthy(req.isPublic) then req.isPublic else Js.Bool(false),
      if t == Folder then None else Some(JoinPath(FolderRoot(env), fileName)))
  }

  /** `fileUpload`. `token` is the `X-Token` header, `env` the value of
      `FOLDER_PATH` ("" when unset) and `fileName` the fresh uuid. The content
      is written before the document is inserted. */
  function Upload(st: State, o: Oracles, token: Option<string>, req: UploadRequest, env: string, fileName: string): (out: Outcome)
    ensures !(out.response.Sent? && out.response.status == 201) ==> out.state == st
    ensures ResolveUser(st, token).None? ==> out.response == Unauthorized
    ensures UploadRejection(st, ResolveUser(st, token), req).Some? ==>
              out == Outcome(UploadRejection(st, ResolveUser(st, token), req).value, st)
    ensures UploadRejection(st, ResolveUser(st, token), req).None? && req.docType != Js.Str("folder") && !req.data.Str?
            ==> out == Outcome(Unhandled, st)
    ensures out.response.Sent? && out.response.status == 201 <==>
              UploadRejection(st, ResolveUser(st, token), req).None? && (req.docType == Js.Str("folder") || req.data.Str?)
    ensures out.response.Sent? && out.response.status == 201 ==>
              && out.response == Sent(201, Record(PublicView(FreshId(st.files), NewDoc(st, token, req, env, fileName))))
              && out.state.files == st.files[FreshId(st.files) := NewDoc(st, token, req, env, fileName)]
              && out.state.users == st.users && out.state.cache == st.cache
              && (req.docType == Js.Str("folder") ==> out.state.content == st.content)
              && (req.docType != Js.Str("folder") ==>
                    out.state.content == st.content[JoinPath(FolderRoot(env), fileName) := o.base64Bytes(req.data.s)])
  {
    var user := ResolveUser(st, token);
    match UploadRejection(st, user, req)
    case Some(rejection) => Outcome(rejection, st)
    case None =>
      var d := NewDoc(st, token, req, env, fileName);
      if d.docType == Folder then InsertDoc(st, d)
      else if !req.data.Str? then
        // Buffer.from(data, 'base64') throws on a non-string
        Outcome(Unhandled, st)
      else
        var written := st.(content := st.content[d.localPath.value := o.base64Bytes(req.data.s)]);
        InsertDoc(written, d)
  }

  // ---------------------------------------------------------------------
  // GET /files/:id/data

  /** `getFile`'s access rule: public documents, and private ones for their
      authenticated owner. */
  predicate CanView(d: Doc, user: Option<nat>) {
    Js.Truthy(d.isPublic) || (user.Some? && user.value == d.userId)
  }

  /** `getFile`: the document's content, hidden exactly like a missing one
      from anybody who may not view it. */
  function GetFile(st: State, token: Option<string>, id: nat): (r: Response)
    ensures id !in st.files ==> r == NotFound
    ensures id in st.files && !CanView(st.files[id], ResolveUser(st, token)) ==> r == NotFound
    ensures r == Fail(400, "A folder doesn't have content") <==>
              id in st.files && CanView(st.files[id], ResolveUser(st, token)) && st.files[id].docType == Folder
    ensures r.Sent? && r.status == 200 <==>
              && id in st.files && CanView(st.files[id], ResolveUser(st, token))
              && st.files[id].docType != Folder && st.files[id].localPath.Some? && st.files[id].localPath.value in st.content
    ensures r.Sent? && r.status == 200 ==> r.body == Content(st.content[st.files[id].localPath.value])
    ensures r == Unhandled <==>
              && id in st.files && CanView(st.files[id], ResolveUser(st, token))
              && st.files[id].docType != Folder && st.files[id].localPath.None?
    ensures && id in st.files && CanView(st.files[id], ResolveUser(st, token))
            && st.files[id].docType != Folder && st.files[id].localPath.Some?
            && st.files[id].localPath.value !in st.content
            ==> r == NotFound
    ensures r.Sent? ==> r.status in {200, 400, 404}
  {
    var user := ResolveUser(st, token);
    if id !in st.files then NotFound
    else
      var d := st.files[id];
      if !CanView(d, user) then NotFound
      else if d.docType == Folder then Fail(400, "A folder doesn't have content")
      else match d.localPath
        // `readFile(undefined, …)` throws before any callback runs; a
        // well-formed store never holds such a document
        case None => Unhandled
        case Some(p) => if p in st.content then Sent(200, Content(st.content[p])) else NotFound
  }

  // ---------------------------------------------------------------------
  // GET /files

  /** The identifiers of `owner`'s documents directly under `parent`
      (`$match: { parentId, userId }`). */
  function OwnedUnder(files: map<nat, Doc>, owner: nat, parent: ParentRef): set<nat> {
    set id | id in files && files[id].userId == owner && files[id].parentId == parent
  }

  /** Those documents in ascending identifier order. */
  function Listing(files: map<nat, Doc>, owner: nat, parent: ParentRef): (ids: seq<nat>)
    ensures forall id :: id in ids <==> id in files && files[id].userId == owner && files[id].parentId == parent
    ensures Ascending(ids)
  {
    SortedIds(OwnedUnder(files, owner, parent))
  }

  /** The public views of the given documents, in order. */
  function Views(files: map<nat, Doc>, ids: seq<nat>): (items: seq<Js.Object>)
    requires forall i :: 0 <= i < |ids| ==> ids[i] in files
    ensures |items| == |ids|
    ensures forall k :: 0 <= k < |ids| ==> items[k] == PublicView(ids[k], files[ids[k]])
  {
    seq(|ids|, k requires 0 <= k < |ids| => PublicView(ids[k], files[ids[k]]))
  }

  /** The views of a single document. */
  lemma ViewsOfOne(files: map<nat, Doc>, id: nat)
    requires id in files
    ensures Views(files, [id]) == [PublicView(id, files[id])]
  {
  }

  /** `getIndex`: one page of the caller's documents under `parentId`
      (the root when absent). */
  function GetIndex(st: State, token: Option<string>, parentId: Option<nat>, page: nat): (r: Response)
    ensures ResolveUser(st, token).None? <==> r == Unauthorized
    ensures ResolveUser(st, token).Some? ==> r.Sent? && r.status == 200 && r.body.Records?
    ensures r.Sent? && r.body.Records? ==> |r.body.items| <= PageSize
    ensures r.Sent? && r.body.Records? ==>
              forall k :: 0 <= k < |r.body.items| ==>
                "id" in r.body.items[k] && r.body.items[k]["id"].Id?
                && r.body.items[k]["id"].id in st.files
                && r.body.items[k] == PublicView(r.body.items[k]["id"].id, st.files[r.body.items[k]["id"].id])
                && r.body.items[k]["userId"] == Js.Id(ResolveUser(st, token).value)
    ensures ResolveUser(st, token).Some? &&
            PageSize * page >= |OwnedUnder(st.files, ResolveUser(st, token).value, ParentOf(parentId))|
            ==> r == Sent(200, Records([]))
  {
    var user := ResolveUser(st, token);
    if user.None? then Unauthorized
    else
      var parent := ParentOf(parentId);
      var ids := Paginate(Listing(st.files, user.value, parent), page);
      Sent(200, Records(Views(st.files, ids)))
  }

  // ---------------------------------------------------------------------
  // GET /files/:id

  /** `getShow`: the document when the caller owns it, public or not. */
  function GetShow(st: State, token: Option<string>, id: nat): (r: Response)
    ensures ResolveUser(st, token).None? ==> r == Unauthorized
    ensures r.Sent? && r.status == 200 <==>
              ResolveUser(st, token).Some? && id in st.files && st.files[id].userId == ResolveUser(st, token).value
    ensures r.Sent? && r.status == 200 ==> r.body == Record(PublicView(id, st.files[id]))
    ensures ResolveUser(st, token).Some? && !(id in st.files && st.files[id].userId == ResolveUser(st, token).value)
            ==> r == NotFound
    ensures r == Unauthorized || r == NotFound || (r.Sent? && r.status == 200)
  {
    var user := ResolveUser(st, token);
    if user.None? then Unauthorized
    else if id in st.files && st.files[id].userId == user.value then Sent(200, Record(PublicView(id, st.files[id])))
    else NotFound
  }

  // ---------------------------------------------------------------------
  // PUT /files/:id/publish and /files/:id/unpublish

  /** `putPubUnpulish`: on the caller's own document, sets `isPublic` to
      whether the last segment of the request path is `publish`. */
  function PutPublish(st: State, token: Option<string>, id: nat, path: string): (out: Outcome)
    ensures ResolveUser(st, token).None? ==> out == Outcome(Unauthorized, st)
    ensures ResolveUser(st, token).Some? && (id !in st.files || st.files[id].userId != ResolveUser(st, token).value)
            ==> out == Outcome(NotFound, st)
    ensures out.state != st ==> out.response.Sent? && out.response.status == 200
    ensures out.response.Sent? && out.response.status == 200 ==>
              && ResolveUser(st, token).Some? && id in st.files && st.files[id].userId == ResolveUser(st, token).value
              && out.state.files.Keys == st.files.Keys
              && out.state.files[id] == st.files[id].(isPublic := Js.Bool(Text.LastPiece(path, '/') == "publish"))
              && (forall other :: other in st.files && other != id ==> out.state.files[other] == st.files[other])
              && out.state.users == st.users && out.state.cache == st.cache && out.state.content == st.content
              && out.response.body == Record(PublicView(id, out.state.files[id]))
  {
    var user := ResolveUser(st, token);
    if user.None? then Outcome(Unauthorized, st)
    else if id !in st.files || st.files[id].userId != user.value then Outcome(NotFound, st)
    else
      var d := st.files[id].(isPublic := Js.Bool(Text.LastPiece(path, '/') == "publish"));
      Outcome(Sent(200, Record(PublicView(id, d))), st.(files := st.files[id := d]))
  }

  // ---------------------------------------------------------------------
  // Properties

  /** In a well-formed store every request is answered, and a viewable
      non-folder is always served with its bytes. */
  lemma GetFileAnswers(st: State, token: Option<string>, id: nat)
    requires Wf(st)
    ensures GetFile(st, token, id).Sent?
    ensures id in st.files && CanView(st.files[id], ResolveUser(st, token)) && st.files[id].docType != Folder
            ==> GetFile(st, token, id) == Sent(200, Content(st.content[st.files[id].localPath.value]))
  {
  }

  /** A document the caller may not view answers exactly as if it did not
      exist, so its existence does not leak. */
  lemma GetFileHidesExistence(st: State, token: Option<string>, id: nat)
    requires id in st.files && !CanView(st.files[id], ResolveUser(st, token))
    ensures GetFile(st, token, id) == GetFile(st.(files := st.files - {id}), token, id)
  {
    assert ResolveUser(st.(files := st.files - {id}), token) == ResolveUser(st, token);
  }

  /** An authenticated listing is the views of one page of `Listing`. */
  lemma GetIndexPage(st: State, token: Option<string>, parentId: Option<nat>, page: nat)
    requires ResolveUser(st, token).Some?
    ensures var ids := Paginate(Listing(st.files, ResolveUser(st, token).value, ParentOf(parentId)), page);
            && (forall i :: 0 <= i < |ids| ==> ids[i] in st.files)
            && GetIndex(st, token, parentId, page) == Sent(200, Records(Views(st.files, ids)))
  {
  }

  /** Item `k` of a listing page is the caller's document under the requested
      parent that has exactly `20 * page + k` such documents before it. */
  lemma GetIndexItem(st: State, token: Option<string>, parentId: Option<nat>, page: nat, k: nat)
    requires ResolveUser(st, token).Some?
    requires k < |GetIndex(st, token, parentId, page).body.items|
    ensures var s := OwnedUnder(st.files, ResolveUser(st, token).value, ParentOf(parentId));
            exists id :: id in s && id in st.files && Rank(s, id) == PageSize * page + k
                         && GetIndex(st, token, parentId, page).body.items[k] == PublicView(id, st.files[id])
  {
    var user := ResolveUser(st, token).value;
    var s := OwnedUnder(st.files, user, ParentOf(parentId));
    var ids := Paginate(Listing(st.files, user, ParentOf(parentId)), page);
    GetIndexPage(st, token, parentId, page);
    PageItemRank(s, page, k);
    var id := ids[k];
    assert GetIndex(st, token, parentId, page).body.items[k] == PublicView(id, st.files[id]);
  }

  /** Conversely, every such document whose rank falls in the page's window
      `[20 * page, 20 * page + 20)` is on that page, at its rank's offset. */
  lemma GetIndexIncludes(st: State, token: Option<string>, parentId: Option<nat>, page: nat, id: nat)
    requires ResolveUser(st, token).Some?
    requires id in OwnedUnder(st.files, ResolveUser(st, token).value, ParentOf(parentId))
    requires PageSize * page <= Rank(OwnedUnder(st.files, ResolveUser(st, token).value, ParentOf(parentId)), id) < PageSize * page + PageSize
    ensures var offset := Rank(OwnedUnder(st.files, ResolveUser(st, token).value, ParentOf(parentId)), id) - PageSize * page;
            && offset < |GetIndex(st, token, parentId, page).body.items|
            && id in st.files
            && GetIndex(st, token, parentId, page).body.items[offset] == PublicView(id, st.files[id])
  {
    var user := ResolveUser(st, token).value;
    var s := OwnedUnder(st.files, user, ParentOf(parentId));
    GetIndexPage(st, token, parentId, page);
    RankOnPage(s, page, id);
  }

  /** Showing a document depends on ownership alone, not on visibility. */
  lemma GetShowIgnoresVisibility(st: State, token: Option<string>, id: nat, v: Js.Value)
    requires id in st.files
    ensures var st' := st.(files := st.files[id := st.files[id].(isPublic := v)]);
            GetShow(st', token, id).Sent? && GetShow(st', token, id).status == 200
            <==> GetShow(st, token, id).Sent? && GetShow(st, token, id).status == 200
  {
    var st' := st.(files := st.files[id := st.files[id].(isPublic := v)]);
    assert ResolveUser(st', token) == ResolveUser(st, token);
  }

  /** Publishing or unpublishing twice is the same as doing it once. */
  lemma PutPublishIdempotent(st: State, token: Option<string>, id: nat, path: string)
    ensures var once := PutPublish(st, token, id, path);
            PutPublish(once.state, token, id, path).state == once.state
  {
    var once := PutPublish(st, token, id, path);
    assert ResolveUser(once.state, token) == ResolveUser(st, token);
  }

  /** The last path segment of the two routes. */
  lemma RouteEndpoints(prefix: string)
    ensures Text.LastPiece(prefix + "/publish", '/') == "publish"
    ensures Text.LastPiece(prefix + "/unpublish", '/') == "unpublish"
  {
    Text.LastPieceOf(prefix, '/', "publish");
    Text.LastPieceOf(prefix, '/', "unpublish");
    assert prefix + "/publish" == prefix + ['/'] + "publish";
    assert prefix + "/unpublish" == prefix + ['/'] + "unpublish";
  }

  /** `/:id/publish` makes the owner's document visible to everybody, and
      `/:id/unpublish` hides it from everybody but its owner. */
  lemma PutPublishVisibility(st: State, token: Option<string>, id: nat, prefix: string, other: Option<nat>)
    requires ResolveUser(st, token).Some? && id in st.files && st.files[id].userId == ResolveUser(st, token).value
    ensures CanView(PutPublish(st, token, id, prefix + "/publish").state.files[id], other)
    ensures CanView(PutPublish(st, token, id, prefix + "/unpublish").state.files[id], other)
            <==> other == Some(st.files[id].userId)
  {
    RouteEndpoints(prefix);
    PutPublishSets(st, token, id, prefix + "/publish");
    PutPublishSets(st, token, id, prefix + "/unpublish");
  }

  /** The owner's request stores `isPublic` as whether the path ends in
      `publish`. */
  lemma PutPublishSets(st: State, token: Option<string>, id: nat, path: string)
    requires ResolveUser(st, token).Some? && id in st.files && st.files[id].userId == ResolveUser(st, token).value
    ensures var after := PutPublish(st, token, id, path).state;
            id in after.files && after.files[id] == st.files[id].(isPublic := Js.Bool(Text.LastPiece(path, '/') == "publish"))
  {
  }

  /** A document's owner never changes. */
  lemma PutPublishKeepsOwner(st: State, token: Option<string>, id: nat, path: string, doc: nat)
    requires doc in st.files
    ensures var after := PutPublish(st, token, id, path).state;
            doc in after.files && after.files[doc].userId == st.files[doc].userId
  {
  }

  /** Changing only a document's visibility keeps the store's invariants. */
  lemma SetVisibilityPreservesWf(st: State, id: nat, v: Js.Value)
    requires Wf(st) && id in st.files
    ensures Wf(st.(files := st.files[id := st.files[id].(isPublic := v)]))
  {
    var files := st.files[id := st.files[id].(isPublic := v)];
    assert forall x :: x in files ==>
      (x in st.files && files[x].docType == st.files[x].docType
       && files[x].localPath == st.files[x].localPath && files[x].parentId == st.files[x].parentId);
  }

  /** Publishing keeps the store's invariants. */
  lemma PutPublishPreservesWf(st: State, token: Option<string>, id: nat, path: string)
    requires Wf(st)
    ensures Wf(PutPublish(st, token, id, path).state)
  {
    var out := PutPublish(st, token, id, path);
    if out.state != st {
      SetVisibilityPreservesWf(st, id, Js.Bool(Text.LastPiece(path, '/') == "publish"));
    }
  }

  /** Adding a document whose parent is an existing folder, under a fresh
      identifier, keeps every parent an existing folder. */
  lemma InsertKeepsParents(files: map<nat, Doc>, d: Doc)
    requires ParentsAreFolders(files)
    requires d.parentId.Parent? ==> d.parentId.id in files && files[d.parentId.id].docType == Folder
    ensures ParentsAreFolders(files[FreshId(files) := d])
  {
    var newId := FreshId(files);
    var after := files[newId := d];
    forall x | x in after && after[x].parentId.Parent?
      ensures after[x].parentId.id in after && after[after[x].parentId.id].docType == Folder
    {
      if x != newId {
        assert after[x] == files[x];
        assert files[x].parentId.id != newId;
      }
    }
  }

  /** Adding a document whose kind matches its content keeps kinds matching. */
  lemma InsertKeepsKinds(files: map<nat, Doc>, d: Doc)
    requires KindsMatchContent(files)
    requires d.localPath.None? <==> d.docType == Folder
    ensures KindsMatchContent(files[FreshId(files) := d])
  {
    var newId := FreshId(files);
    var after := files[newId := d];
    forall x | x in after
      ensures after[x].docType == Folder <==> after[x].localPath.None?
    {
      if x != newId {
        assert after[x] == files[x];
      }
    }
  }

  /** Adding a document whose content is present, while keeping the old
      content, keeps all content present. */
  lemma InsertKeepsContent(files: map<nat, Doc>, content: map<string, Bytes>, d: Doc, content': map<string, Bytes>)
    requires ContentPresent(files, content)
    requires forall p :: p in content ==> p in content'
    requires d.localPath.Some? ==> d.localPath.value in content'
    ensures ContentPresent(files[FreshId(files) := d], content')
  {
    var newId := FreshId(files);
    var after := files[newId := d];
    forall x | x in after && after[x].localPath.Some?
      ensures after[x].localPath.value in content'
    {
      if x != newId {
        assert after[x] == files[x];
      }
    }
  }

  /** Adding a well-formed document under a fresh identifier, with at least
      the old content present, keeps the store's invariants. */
  lemma InsertPreservesWf(st: State, d: Doc, after: State)
    requires Wf(st)
    requires after.files == st.files[FreshId(st.files) := d] && after.users == st.users
    requires forall p :: p in st.content ==> p in after.content
    requires d.localPath.None? <==> d.docType == Folder
    requires d.localPath.Some? ==> d.localPath.value in after.content
    requires d.parentId.Parent? ==> d.parentId.id in st.files && st.files[d.parentId.id].docType == Folder
    ensures Wf(after)
  {
    InsertKeepsParents(st.files, d);
    InsertKeepsKinds(st.files, d);
    InsertKeepsContent(st.files, st.content, d, after.content);
  }

  /** Uploading keeps the store's invariants: folders carry no content,
      every stored path has its bytes, and every parent is a folder. */
  lemma UploadPreservesWf(st: State, o: Oracles, token: Option<string>, req: UploadRequest, env: string, fileName: string)
    requires Wf(st)
    ensures Wf(Upload(st, o, token, req, env, fileName).state)
  {
    var out := Upload(st, o, token, req, env, fileName);
    if out.response.Sent? && out.response.status == 201 {
      var user := ResolveUser(st, token);
      assert UploadRejection(st, user, req).None?;
      var d := NewDoc(st, token, req, env, fileName);
      InsertPreservesWf(st, d, out.state);
    }
  }

  /** A fresh document joins exactly its own owner's and parent's set. */
  lemma OwnedUnderInsert(files: map<nat, Doc>, id: nat, d: Doc)
    requires id !in files
    ensures OwnedUnder(files[id := d], d.userId, d.parentId) == OwnedUnder(files, d.userId, d.parentId) + {id}
  {
    var after := files[id := d];
    forall x | x in after && x != id
      ensures after[x] == files[x]
    {
    }
  }

  /** Appending an identifier above every element keeps a sequence ascending. */
  lemma AppendLargest(before: seq<nat>, id: nat)
    requires Ascending(before)
    requires forall i :: 0 <= i < |before| ==> before[i] < id
    ensures Ascending(before + [id])
  {
  }

  /** Inserting a document under an identifier above every other appends it
      to the listing of its owner and parent. */
  lemma ListingAfterInsert(files: map<nat, Doc>, id: nat, d: Doc)
    requires forall x :: x in files ==> x < id
    ensures Listing(files[id := d], d.userId, d.parentId) == Listing(files, d.userId, d.parentId) + [id]
  {
    var before := Listing(files, d.userId, d.parentId);
    var s := OwnedUnder(files[id := d], d.userId, d.parentId);
    OwnedUnderInsert(files, id, d);
    assert forall i :: 0 <= i < |before| ==> before[i] in files;
    AppendLargest(before, id);
    AscendingEnumerationIsSortedIds(before + [id], s);
  }

  /** What an accepted upload leaves behind: the new record under a fresh
      identifier and, for anything but a folder, its bytes at its path. */
  lemma UploadAccepted(st: State, o: Oracles, token: Option<string>, req: UploadRequest, env: string, fileName: string)
    requires UploadRejection(st, ResolveUser(st, token), req).None?
    requires req.docType == Js.Str("folder") || req.data.Str?
    ensures var d := NewDoc(st, token, req, env, fileName);
            Upload(st, o, token, req, env, fileName).state ==
              if req.docType == Js.Str("folder") then st.(files := st.files[FreshId(st.files) := d])
              else st.(files := st.files[FreshId(st.files) := d],
                       content := st.content[d.localPath.value := o.base64Bytes(req.data.s)])
  {
  }

  /** An accepted upload is listed under its parent for its owner, after
      every document that was there before it. */
  lemma UploadListedLast(st: State, o: Oracles, token: Option<string>, req: UploadRequest, env: string, fileName: string)
    requires Upload(st, o, token, req, env, fileName).response.Sent?
    requires Upload(st, o, token, req, env, fileName).response.status == 201
    ensures var after := Upload(st, o, token, req, env, fileName).state;
            Listing(after.files, ResolveUser(st, token).value, ParentOf(req.parentId))
            == Listing(st.files, ResolveUser(st, token).value, ParentOf(req.parentId)) + [FreshId(st.files)]
  {
    assert UploadRejection(st, ResolveUser(st, token), req).None?;
    var d := NewDoc(st, token, req, env, fileName);
    ListingAfterInsert(st.files, FreshId(st.files), d);
  }
}

=== FILE: js.dfy ===
/**
 * The JavaScript values the controllers inspect: request-body fields,
 * stored documents and response objects.
 */
module Js {

  /** A scalar value as it reaches a handler or sits in a stored document.
      JSON arrays, objects and non-integer numbers have no case here. `Id`
      is a database object identifier (a MongoDB ObjectId): an object, and
      therefore truthy. */
  datatype Value =
    | Undefined
    | Null
    | Bool(b: bool)
    | Num(n: int)
    | Str(s: string)
    | Id(id: nat)

  /** JavaScript truthiness; `NaN` is not modelled. */
  predicate Truthy(v: Value) {
    match v
    case Undefined => false
    case Null => false
    case Bool(b) => b
    case Num(n) => n != 0
    case Str(s) => s != ""
    case Id(_) => true
  }

  /** A plain object. A key the map does not hold reads as `undefined`. */
  type Object = map<string, Value>

  /** Property read `o[key]`. */
  function Get(o: Object, key: string): Value {
    if key in o then o[key] else Undefined
  }
}

=== FILE: options.dfy ===
/** An optional value: a JavaScript `undefined`/`null` on one side, a present value on the other. */
module Options {

  datatype Option<+T> = None | Some(value: T) {

    /** The value when present, otherwise `default`. */
    function GetOr(default: T): T {
      match this
      case Some(v) => v
      case None => default
    }
  }
}

=== FILE: ordering.dfy ===
/**
 * Identifier order and offset pagination. Document identifiers are issued in
 * increasing order (as MongoDB ObjectIds are), so ascending identifier order
 * is creation order.
 */
module Ordering {

  /** Number of documents per listing page (`$limit: 20`). */
  const PageSize: nat := 20

  predicate IsMin(m: nat, s: set<nat>) {
    m in s && forall y :: y in s ==> m <= y
  }

  lemma {:induction false} MinExists(s: set<nat>)
    requires s != {}
    ensures exists m :: IsMin(m, s)
    decreases s
  {
    var x :| x in s;
    if s - {x} == {} {
      forall y | y in s
        ensures x <= y
      {
        assert y !in s - {x};
      }
      assert IsMin(x, s);
    } else {
      MinExists(s - {x});
      var m :| IsMin(m, s - {x});
      var least := if x <= m then x else m;
      forall y | y in s
        ensures least <= y
      {
        if y != x {
          assert y in s - {x};
        }
      }
      assert IsMin(least, s);
    }
  }

  /** The least element of a non-empty set. */
  function Min(s: set<nat>): (m: nat)
    requires s != {}
    ensures m in s
    ensures forall y :: y in s ==> m <= y
  {
    MinExists(s);
    var m :| IsMin(m, s);
    m
  }

  /** Strictly increasing, hence duplicate-free. */
  predicate Ascending(r: seq<nat>) {
    forall i, j :: 0 <= i < j < |r| ==> r[i] < r[j]
  }

  /** Putting an element below every other in front keeps a sequence ascending. */
  lemma ConsAscending(m: nat, rest: seq<nat>)
    requires Ascending(rest)
    requires forall x :: x in rest ==> m < x
    ensures Ascending([m] + rest)
  {
    forall i, j | 0 <= i < j < |rest| + 1
      ensures ([m] + rest)[i] < ([m] + rest)[j]
    {
      assert ([m] + rest)[j] == rest[j - 1] && rest[j - 1] in rest;
      if i > 0 {
        assert ([m] + rest)[i] == rest[i - 1];
      }
    }
  }

  /** The elements of `s` in ascending order (`$sort: { _id: 1 }`). */
  function SortedIds(s: set<nat>): (r: seq<nat>)
    ensures forall x :: x in r <==> x in s
    ensures Ascending(r)
    ensures |r| == |s|
    decreases s
  {
    if s == {} then []
    else
      var m := Min(s);
      var rest := SortedIds(s - {m});
      ConsAscending(m, rest);
      [m] + rest
  }

  /** The head of an ascending sequence is its least element. */
  lemma HeadIsLeast(r: seq<nat>)
    requires Ascending(r)
    ensures forall j :: 0 <= j < |r| ==> r[0] <= r[j]
  {
  }

  /** The elements of a sequence, as a set. */
  function Elements(r: seq<nat>): set<nat> {
    set x | x in r
  }

  /** The head of a non-empty ascending sequence is the minimum of its elements. */
  lemma HeadIsMin(r: seq<nat>)
    requires Ascending(r) && r != []
    ensures Elements(r) != {} && r[0] == Min(Elements(r))
  {
    HeadIsLeast(r);
    var s := Elements(r);
    assert r[0] in s;
    var m := Min(s);
    assert m in r;
    var k :| 0 <= k < |r| && r[k] == m;
    assert r[0] <= r[k];
  }

  /** Dropping the head of an ascending sequence drops exactly its minimum. */
  lemma TailElements(r: seq<nat>)
    requires Ascending(r) && r != []
    ensures Elements(r[1..]) == Elements(r) - {r[0]}
  {
    var rest := r[1..];
    forall x | x in Elements(r) - {r[0]}
      ensures x in rest
    {
      var k :| 0 <= k < |r| && r[k] == x;
      assert rest[k - 1] == x;
    }
    forall x | x in rest
      ensures x in Elements(r) - {r[0]}
    {
      var k :| 0 <= k < |rest| && rest[k] == x;
      assert r[k + 1] == x;
    }
  }

  /** The tail of an ascending sequence is ascending. */
  lemma AscendingTail(r: seq<nat>)
    requires Ascending(r) && r != []
    ensures Ascending(r[1..])
  {
    forall i, j | 0 <= i < j < |r| - 1
      ensures r[1..][i] < r[1..][j]
    {
      assert r[1..][i] == r[i + 1] && r[1..][j] == r[j + 1];
    }
  }

  /** A non-empty sequence is its head followed by its tail. */
  lemma HeadAndTail(r: seq<nat>)
    requires r != []
    ensures r == [r[0]] + r[1..]
  {
  }

  /** One step of the enumeration: the minimum, then the rest. */
  lemma SortedIdsCons(s: set<nat>, head: nat, tail: seq<nat>)
    requires s != {} && head == Min(s)
    requires SortedIds(s - {head}) == tail
    ensures SortedIds(s) == [head] + tail
  {
  }

  /** An ascending sequence is the ascending enumeration of its elements. */
  lemma {:induction false} AscendingIsSortedIds(r: seq<nat>)
    requires Ascending(r)
    ensures r == SortedIds(Elements(r))
    decreases |r|
  {
    if r != [] {
      var tail := r[1..];
      var s := Elements(r);
      assert r[0] in s;
      assert r[0] == Min(s) by { HeadIsMin(r); }
      assert tail == SortedIds(s - {r[0]}) by {
        AscendingTail(r);
        TailElements(r);
        AscendingIsSortedIds(tail);
      }
      SortedIdsCons(s, r[0], tail);
      HeadAndTail(r);
    }
  }

  /** An ascending enumeration of a set is unique: it is `SortedIds`. */
  lemma AscendingEnumerationIsSortedIds(r: seq<nat>, s: set<nat>)
    requires forall x :: x in r <==> x in s
    requires Ascending(r)
    ensures r == SortedIds(s)
  {
    assert Elements(r) == s;
    AscendingIsSortedIds(r);
  }

  /** The number of elements of `s` below `x`. */
  function Rank(s: set<nat>, x: nat): nat {
    |set y | y in s && y < x|
  }

  /** Removing an element below `x` lowers its rank by one. */
  lemma RankWithout(s: set<nat>, m: nat, x: nat)
    requires m in s && m < x
    ensures Rank(s, x) == Rank(s - {m}, x) + 1
  {
    var below := set y | y in s && y < x;
    var belowRest := set y | y in s - {m} && y < x;
    assert below == belowRest + {m};
    assert m !in belowRest;
  }

  /** The minimum has rank zero. */
  lemma RankOfMin(s: set<nat>)
    requires s != {}
    ensures Rank(s, Min(s)) == 0
  {
    var m := Min(s);
    assert (set y | y in s && y < m) == {};
  }

  /** Position `k` of the ascending enumeration holds the element of `s` that
      has exactly `k` smaller elements. */
  lemma {:induction false} SortedIdsRank(s: set<nat>, k: nat)
    requires k < |SortedIds(s)|
    ensures Rank(s, SortedIds(s)[k]) == k
    decreases s
  {
    var m := Min(s);
    var rest := SortedIds(s - {m});
    assert SortedIds(s) == [m] + rest;
    if k == 0 {
      RankOfMin(s);
    } else {
      var x := rest[k - 1];
      assert SortedIds(s)[k] == x;
      SortedIdsRank(s - {m}, k - 1);
      assert x in s - {m};
      RankWithout(s, m, x);
    }
  }

  /** Item `k` of page `page` of the enumeration has rank `20 * page + k`. */
  lemma PageItemRank(s: set<nat>, page: nat, k: nat)
    requires k < |Paginate(SortedIds(s), page)|
    ensures Paginate(SortedIds(s), page)[k] in s
    ensures Rank(s, Paginate(SortedIds(s), page)[k]) == PageSize * page + k
  {
    var all := SortedIds(s);
    var i := PageSize * page + k;
    assert PageSize * page < |all|;
    assert i < |all|;
    assert Paginate(all, page)[k] == all[i];
    SortedIdsRank(s, i);
  }

  /** Every element of `s` sits in the ascending enumeration at its rank. */
  lemma RankPosition(s: set<nat>, x: nat) returns (i: nat)
    requires x in s
    ensures i == Rank(s, x) && i < |SortedIds(s)| && SortedIds(s)[i] == x
  {
    var all := SortedIds(s);
    assert x in all;
    i :| 0 <= i < |all| && all[i] == x;
    SortedIdsRank(s, i);
  }

  /** An element whose rank falls in page `page`'s window is on that page,
      at its rank's offset. */
  lemma RankOnPage(s: set<nat>, page: nat, x: nat)
    requires x in s
    requires PageSize * page <= Rank(s, x) < PageSize * page + PageSize
    ensures Rank(s, x) - PageSize * page < |Paginate(SortedIds(s), page)|
    ensures Paginate(SortedIds(s), page)[Rank(s, x) - PageSize * page] == x
  {
    var i := RankPosition(s, x);
  }

  /** An identifier larger than every key in use (a fresh ObjectId). */
  function FreshId<T>(m: map<nat, T>): (id: nat)
    ensures id !in m
    ensures forall k :: k in m ==> k < id
  {
    var ks := SortedIds(m.Keys);
    if ks == [] then 0
    else
      assert forall k :: k in m ==> k <= ks[|ks| - 1] by {
        forall k | k in m
          ensures k <= ks[|ks| - 1]
        {
          assert k in ks;
          var j :| 0 <= j < |ks| && ks[j] == k;
          assert j == |ks| - 1 || ks[j] < ks[|ks| - 1];
        }
      }
      ks[|ks| - 1] + 1
  }

  /** Offset pagination: `$skip: page * 20`, then `$limit: 20`. */
  function Paginate<T>(items: seq<T>, page: nat): (r: seq<T>)
    ensures |r| <= PageSize
    ensures PageSize * page >= |items| ==> r == []
    ensures PageSize * page < |items| ==>
              |r| == if |items| - PageSize * page < PageSize then |items| - PageSize * page else PageSize
    ensures forall k :: 0 <= k < |r| ==> r[k] == items[PageSize * page + k]
  {
    var lo := if PageSize * page < |items| then PageSize * page else |items|;
    var hi := if lo + PageSize < |items| then lo + PageSize else |items|;
    items[lo..hi]
  }

  /** A listing no longer than a page is its own first page. */
  lemma FirstPageOfShort<T>(items: seq<T>)
    requires |items| <= PageSize
    ensures Paginate(items, 0) == items
  {
  }

  /** Pages `0 .. n-1` laid end to end. */
  function FirstPages<T>(items: seq<T>, n: nat): seq<T> {
    if n == 0 then [] else FirstPages(items, n - 1) + Paginate(items, n - 1)
  }

  /** The pages tile the listing: the first `n` pages are exactly its first
      `20 * n` items, with nothing skipped and nothing repeated. */
  lemma {:induction false} FirstPagesArePrefix<T>(items: seq<T>, n: nat)
    ensures FirstPages(items, n) == items[..if PageSize * n < |items| then PageSize * n else |items|]
  {
    if n > 0 {
      FirstPagesArePrefix(items, n - 1);
    }
  }

  /** Every item of a listing is on page `i / 20`, at offset `i % 20`. */
  lemma ItemOnPage<T>(items: seq<T>, i: nat)
    requires i < |items|
    ensures i % PageSize < |Paginate(items, i / PageSize)|
    ensures Paginate(items, i / PageSize)[i % PageSize] == items[i]
  {
  }
}

=== FILE: scenarios.dfy ===
/** Properties that span several requests. */
module Scenarios {
  import Js
  import Text
  import opened Options
  import opened Ordering
  import opened Store
  import opened Files
  import Users
  import Auth
  import Worker

  /** A folder that was just created has nothing under it. */
  lemma FreshFolderIsEmpty(st: State, d: Doc, owner: nat)
    requires Wf(st)
    requires d.parentId.Parent? ==> d.parentId.id in st.files
    ensures Listing(st.files[FreshId(st.files) := d], owner, Parent(FreshId(st.files))) == []
  {
    var f := FreshId(st.files);
    var after := st.files[f := d];
    assert OwnedUnder(after, owner, Parent(f)) == {} by {
      forall x | x in after
        ensures after[x].parentId != Parent(f)
      {
        if x != f {
          assert after[x] == st.files[x];
        }
      }
    }
  }

  /** A file uploaded into a folder that was empty is its only entry. */
  lemma OnlyEntry(st1: State, token: Option<string>, f: nat, d: Doc)
    requires ResolveUser(st1, token).Some? && d.userId == ResolveUser(st1, token).value && d.parentId == Parent(f)
    requires Listing(st1.files, d.userId, Parent(f)) == []
    ensures var g := FreshId(st1.files);
            var st2 := st1.(files := st1.files[g := d]);
            GetIndex(st2, token, Some(f), 0) == Sent(200, Records([PublicView(g, d)]))
  {
    var g := FreshId(st1.files);
    var st2 := st1.(files := st1.files[g := d]);
    assert ResolveUser(st2, token) == ResolveUser(st1, token);
    assert Listing(st2.files, d.userId, Parent(f)) == [g] by { ListingAfterInsert(st1.files, g, d); }
    FirstPageOfShort([g]);
    ViewsOfOne(st2.files, g);
    GetIndexPage(st2, token, Some(f), 0);
  }

  /** Creating the folder "docs" at the root gives an empty folder. */
  lemma CreateEmptyFolder(st: State, o: Oracles, token: Option<string>, env: string, fileName: string)
    requires Wf(st)
    requires ResolveUser(st, token).Some?
    ensures var req := UploadRequest(Js.Str("docs"), Js.Str("folder"), None, Js.Undefined, Js.Undefined);
            var st1 := Upload(st, o, token, req, env, fileName).state;
            var f := FreshId(st.files);
            && ResolveUser(st1, token) == ResolveUser(st, token)
            && f in st1.files && st1.files[f].docType == Folder
            && Listing(st1.files, ResolveUser(st, token).value, Parent(f)) == []
  {
    var req := UploadRequest(Js.Str("docs"), Js.Str("folder"), None, Js.Undefined, Js.Undefined);
    assert ParseType(Js.Str("folder")) == Some(Folder);
    UploadAccepted(st, o, token, req, env, fileName);
    var st1 := Upload(st, o, token, req, env, fileName).state;
    var folder := NewDoc(st, token, req, env, fileName);
    FreshFolderIsEmpty(st, folder, ResolveUser(st, token).value);
    assert ResolveUser(st1, token) == ResolveUser(st, token);
  }

  /** Uploading a file into an empty folder makes it the folder's only entry. */
  lemma FileIntoEmptyFolder(st1: State, o: Oracles, token: Option<string>, env: string, fileName: string, data: string, f: nat)
    requires ResolveUser(st1, token).Some?
    requires f in st1.files && st1.files[f].docType == Folder
    requires Listing(st1.files, ResolveUser(st1, token).value, Parent(f)) == []
    requires data != ""
    ensures var req := UploadRequest(Js.Str("report.txt"), Js.Str("file"), Some(f), Js.Undefined, Js.Str(data));
            var st2 := Upload(st1, o, token, req, env, fileName).state;
            var g := FreshId(st1.files);
            && g in st2.files && st2.files[g].name == Js.Str("report.txt")
            && GetIndex(st2, token, Some(f), 0) == Sent(200, Records([PublicView(g, st2.files[g])]))
  {
    var req := UploadRequest(Js.Str("report.txt"), Js.Str("file"), Some(f), Js.Undefined, Js.Str(data));
    assert ParseType(Js.Str("file")) == Some(File);
    UploadAccepted(st1, o, token, req, env, fileName);
    var file := NewDoc(st1, token, req, env, fileName);
    OnlyEntry(st1, token, f, file);
  }

  /** Upload a folder "docs", then a file "report.txt" inside it: listing
      the folder's first page shows exactly that file. */
  lemma FolderThenFileListing(st: State, o: Oracles, token: Option<string>, env: string, fileName: string, data: string)
    requires Wf(st)
    requires ResolveUser(st, token).Some?
    requires data != ""
    ensures var folderReq := UploadRequest(Js.Str("docs"), Js.Str("folder"), None, Js.Undefined, Js.Undefined);
            var st1 := Upload(st, o, token, folderReq, env, fileName).state;
            var f := FreshId(st.files);
            var fileReq := UploadRequest(Js.Str("report.txt"), Js.Str("file"), Some(f), Js.Undefined, Js.Str(data));
            var st2 := Upload(st1, o, token, fileReq, env, fileName).state;
            var g := FreshId(st1.files);
            && g in st2.files && st2.files[g].name == Js.Str("report.txt")
            && GetIndex(st2, token, Some(f), 0) == Sent(200, Records([PublicView(g, st2.files[g])]))
  {
    var folderReq := UploadRequest(Js.Str("docs"), Js.Str("folder"), None, Js.Undefined, Js.Undefined);
    CreateEmptyFolder(st, o, token, env, fileName);
    var st1 := Upload(st, o, token, folderReq, env, fileName).state;
    FileIntoEmptyFolder(st1, o, token, env, fileName, data, FreshId(st.files));
  }

  /** A published document with content is served to anybody. */
  lemma PublishedIsServed(st: State, owner: Option<string>, other: Option<string>, id: nat, prefix: string)
    requires ResolveUser(st, owner).Some? && id in st.files && st.files[id].userId == ResolveUser(st, owner).value
    requires st.files[id].docType != Folder
    requires st.files[id].localPath.Some? && st.files[id].localPath.value in st.content
    ensures GetFile(PutPublish(st, owner, id, prefix + "/publish").state, other, id)
            == Sent(200, Content(st.content[st.files[id].localPath.value]))
  {
    var after := PutPublish(st, owner, id, prefix + "/publish").state;
    PutPublishVisibility(st, owner, id, prefix, ResolveUser(after, other));
  }

  /** A private image is invisible to another user until its owner publishes
      it; afterwards the same request returns its bytes. */
  lemma PublishRevealsToOthers(st: State, o: Oracles, owner: Option<string>, other: Option<string>,
                               env: string, fileName: string, data: string, prefix: string)
    requires ResolveUser(st, owner).Some? && ResolveUser(st, other).Some?
    requires ResolveUser(st, owner) != ResolveUser(st, other)
    requires data != ""
    ensures var req := UploadRequest(Js.Str("photo.png"), Js.Str("image"), None, Js.Bool(false), Js.Str(data));
            var st1 := Upload(st, o, owner, req, env, fileName).state;
            var id := FreshId(st.files);
            var st2 := PutPublish(st1, owner, id, prefix + "/publish").state;
            && GetFile(st1, other, id) == NotFound
            && GetFile(st2, other, id) == Sent(200, Content(o.base64Bytes(data)))
  {
    var req := UploadRequest(Js.Str("photo.png"), Js.Str("image"), None, Js.Bool(false), Js.Str(data));
    assert ParseType(Js.Str("image")) == Some(Image);
    UploadAccepted(st, o, owner, req, env, fileName);
    var st1 := Upload(st, o, owner, req, env, fileName).state;
    var id := FreshId(st.files);
    var d := NewDoc(st, owner, req, env, fileName);
    assert st1.files[id] == d && st1.content[d.localPath.value] == o.base64Bytes(data);
    assert ResolveUser(st1, owner) == ResolveUser(st, owner);
    assert ResolveUser(st1, other) == ResolveUser(st, other);
    PublishedIsServed(st1, owner, other, id, prefix);
  }

  /** Right after registering an unused email, the new user is the only one
      with that email: a lookup by that email finds them exactly when the
      digest is the registered password's. */
  lemma RegisteredUserFound(st: State, o: Oracles, email: string, password: string, digest: string)
    requires email != "" && password != ""
    requires !Users.EmailTaken(st.users, Js.Str(email))
    ensures var st1 := Users.PostNew(st, o, Js.Str(email), Js.Str(password)).state;
            Auth.FindUser(st1.users, email, digest)
            == if digest == o.sha1(password) then Some(FreshId(st.users)) else None
  {
    var st1 := Users.PostNew(st, o, Js.Str(email), Js.Str(password)).state;
    var uid := FreshId(st.users);
    assert uid in st1.users && st1.users[uid] == User(Js.Str(email), o.sha1(password));
    assert forall x :: x in st1.users && st1.users[x].email == Js.Str(email) ==> x == uid by {
      assert forall x :: x in st.users ==> st.users[x].email != Js.Str(email);
    }
    var found := Auth.FindUser(st1.users, email, digest);
    if digest == o.sha1(password) {
      assert found.Some?;
    }
  }

  /** With the corrected credential parser, a freshly registered user logs in
      with exactly the email and password they registered, whatever the
      password holds, and the new token resolves to them. */
  lemma RegisterThenLogin(st: State, o: Oracles, email: string, password: string,
                          scheme: string, encoded: string, token: string)
    requires email != "" && password != "" && ':' !in email
    requires ' ' !in scheme && ' ' !in encoded
    requires o.base64Text(encoded) == email + ":" + password
    requires !Users.EmailTaken(st.users, Js.Str(email))
    ensures var st1 := Users.PostNew(st, o, Js.Str(email), Js.Str(password)).state;
            var out := Auth.ConnectCorrected(st1, o, Some(scheme + " " + encoded), token);
            && out.response == Sent(200, TokenInfo(token))
            && ResolveUser(out.state, Some(token)) == Some(FreshId(st.users))
  {
    var st1 := Users.PostNew(st, o, Js.Str(email), Js.Str(password)).state;
    var header := scheme + " " + encoded;
    assert Auth.CredentialUser(st1, o, header, Auth.ParseCredentialsCorrected) == Some(FreshId(st.users)) by {
      Auth.DecodeHeaderIgnoresScheme(o, scheme, encoded);
      Auth.ParseCredentialsCorrectedRoundTrip(email, password);
      RegisteredUserFound(st, o, email, password, o.sha1(password));
    }
  }

  /** As written, a user who registered a password containing ':' can never
      log in: the parser keeps only the text before that ':'. */
  lemma ColonPasswordLocksOut(st: State, o: Oracles, email: string, first: string, second: string,
                              scheme: string, encoded: string, token: string)
    requires email != "" && ':' !in email && ':' !in first
    requires ' ' !in scheme && ' ' !in encoded
    requires o.base64Text(encoded) == email + ":" + first + ":" + second
    requires o.sha1(first) != o.sha1(first + ":" + second)
    requires !Users.EmailTaken(st.users, Js.Str(email))
    ensures var st1 := Users.PostNew(st, o, Js.Str(email), Js.Str(first + ":" + second)).state;
            Auth.Connect(st1, o, Some(scheme + " " + encoded), token) == Outcome(Unauthorized, st1)
  {
    var password := first + ":" + second;
    var st1 := Users.PostNew(st, o, Js.Str(email), Js.Str(password)).state;
    var header := scheme + " " + encoded;
    assert && Auth.DecodeHeader(o, header) == Some(email + ":" + password)
           && Auth.ParseCredentials(email + ":" + password) == Some((email, first))
           && Auth.CredentialUser(st1, o, header, Auth.ParseCredentials).None? by {
      assert email + ":" + password == email + ":" + first + ":" + second;
      Auth.DecodeHeaderIgnoresScheme(o, scheme, encoded);
      Auth.ParseCredentialsOf(email, first, second);
      RegisteredUserFound(st, o, email, password, o.sha1(first));
    }
  }

  /** An image its owner uploaded, queued with the owner's and the image's
      identifiers, yields the three derivatives `<path>_500`, `<path>_250`
      and `<path>_100` when every resize succeeds. */
  lemma UploadedImageGetsThumbnails(st: State, o: Oracles, token: Option<string>, env: string, fileName: string, data: string)
    requires ResolveUser(st, token).Some?
    requires data != ""
    requires forall w :: w in Worker.Widths ==> o.thumbnail(o.base64Bytes(data), w).Some?
    ensures var req := UploadRequest(Js.Str("photo.png"), Js.Str("image"), None, Js.Undefined, Js.Str(data));
            var st1 := Upload(st, o, token, req, env, fileName).state;
            var run := Worker.MakeThumbnail(st1, o, Worker.JobData(ResolveUser(st, token), Some(FreshId(st.files))));
            var path := JoinPath(FolderRoot(env), fileName);
            && run.result == Worker.ReturnedNull
            && |run.written| == 3
            && run.written[0].path == Worker.DerivativePath(path, 500)
            && run.written[1].path == Worker.DerivativePath(path, 250)
            && run.written[2].path == Worker.DerivativePath(path, 100)
  {
    var req := UploadRequest(Js.Str("photo.png"), Js.Str("image"), None, Js.Undefined, Js.Str(data));
    var st1 := Upload(st, o, token, req, env, fileName).state;
    var id := FreshId(st.files);
    var path := JoinPath(FolderRoot(env), fileName);
    assert && id in st1.files && st1.files[id].userId == ResolveUser(st, token).value
           && st1.files[id].localPath == Some(path)
           && path in st1.content && st1.content[path] == o.base64Bytes(data) by {
      assert ParseType(Js.Str("image")) == Some(Image);
      UploadAccepted(st, o, token, req, env, fileName);
    }
    Worker.StoredImageGetsThumbnails(st1, o, ResolveUser(st, token).value, id);
  }

  /** After a successful login, `/users/me` with the new token answers the
      logged-in user's identifier and the email given in the credentials. */
  lemma LoginThenMe(st: State, o: Oracles, header: Option<string>, token: string)
    requires Auth.Connect(st, o, header, token).response == Sent(200, TokenInfo(token))
    ensures header.Some? && Auth.DecodeHeader(o, header.value).Some?
            && Auth.ParseCredentials(Auth.DecodeHeader(o, header.value).value).Some?
    ensures var email := Auth.ParseCredentials(Auth.DecodeHeader(o, header.value).value).value.0;
            var uid := Auth.CredentialUser(st, o, header.value, Auth.ParseCredentials).value;
            Users.GetMe(Auth.Connect(st, o, header, token).state, Some(token)) == Sent(200, UserInfo(uid, Js.Str(email)))
  {
    Auth.ConnectThenResolve(st, o, header, token);
  }

  /** After a successful logout, `/users/me` with the same token answers 401. */
  lemma LogoutThenMe(st: State, token: Option<string>)
    requires Auth.Disconnect(st, token).response == Sent(204, Empty)
    ensures Users.GetMe(st, token).Sent? && Users.GetMe(st, token).status == 200
    ensures Users.GetMe(Auth.Disconnect(st, token).state, token) == Unauthorized
  {
  }
}

=== FILE: store.dfy ===
/**
 * The state every handler reads and writes: the `files` and `users`
 * collections, the session cache and the content directory, plus the
 * responses the handlers send.
 */
module Store {
  import Js
  import opened Options

  type Bytes = seq<bv8>

  /** The three accepted document kinds. */
  datatype DocType = Folder | File | Image

  /** The string tag a document carries in the store and in requests. */
  function TypeName(t: DocType): string {
    match t
    case Folder => "folder"
    case File => "file"
    case Image => "image"
  }

  /** A document's parent: the root sentinel `"0"`, or a folder's identifier. */
  datatype ParentRef = Root | Parent(id: nat)

  /** A record of the `files` collection, without its `_id` (the store's key).
      `name` and `isPublic` are kept exactly as the request sent them. */
  datatype Doc = Doc(
    userId: nat,
    name: Js.Value,
    docType: DocType,
    parentId: ParentRef,
    isPublic: Js.Value,
    localPath: Option<string>)

  /** A record of the `users` collection; `password` holds the SHA-1 digest. */
  datatype User = User(email: Js.Value, password: string)

  /** A cache entry: the user identifier and its time to live in seconds. */
  datatype Session = Session(userId: nat, ttl: nat)

  datatype State = State(
    files: map<nat, Doc>,
    users: map<nat, User>,
    cache: map<string, Session>,
    content: map<string, Bytes>)

  /** The functions the handlers call but this model does not define:
      base64 decoding to text and to bytes, the SHA-1 hex digest, and the
      image-thumbnail resizer (`None` when it rejects). */
  datatype Oracles = Oracles(
    base64Text: string -> string,
    base64Bytes: string -> Bytes,
    sha1: string -> string,
    thumbnail: (Bytes, nat) -> Option<Bytes>)

  datatype Body =
    | Error(message: string)
    | Record(fields: Js.Object)
    | Records(items: seq<Js.Object>)
    | UserInfo(id: nat, email: Js.Value)
    | TokenInfo(token: string)
    | Content(bytes: Bytes)
    | Empty

  /** What reaches the client: a status with a body, or nothing at all when
      the handler throws (Express leaves an async rejection unanswered). */
  datatype Response = Sent(status: nat, body: Body) | Unhandled

  function Fail(status: nat, message: string): Response {
    Sent(status, Error(message))
  }

  const Unauthorized: Response := Fail(401, "Unauthorized")
  const NotFound: Response := Fail(404, "Not found")

  /** A handler's result: the response and the state after it. */
  datatype Outcome = Outcome(response: Response, state: State)

  /** Session lifetime set on login, in seconds (one day). */
  const SessionTtl: nat := 86400

  /** The cache key of a session token. */
  function SessionKey(token: string): string {
    "auth_" + token
  }

  /** The key looked up for an `X-Token` header; a missing header is
      rendered by the template literal as the text `undefined`. */
  function HeaderKey(header: Option<string>): string {
    SessionKey(header.GetOr("undefined"))
  }

  /** The caller behind an `X-Token` header: the session's user when the key
      is cached and that user still exists, otherwise nobody. */
  function ResolveUser(st: State, header: Option<string>): (u: Option<nat>)
    ensures u.Some? <==> HeaderKey(header) in st.cache && st.cache[HeaderKey(header)].userId in st.users
    ensures u.Some? ==> u.value == st.cache[HeaderKey(header)].userId && u.value in st.users
  {
    var key := HeaderKey(header);
    if key !in st.cache then None
    else
      var uid := st.cache[key].userId;
      if uid !in st.users then None else Some(uid)
  }

  /** Folders never carry content; every other document names its content. */
  ghost predicate KindsMatchContent(files: map<nat, Doc>) {
    forall id :: id in files ==> (files[id].docType == Folder <==> files[id].localPath.None?)
  }

  /** A document's content is written before the document is recorded. */
  ghost predicate ContentPresent(files: map<nat, Doc>, content: map<string, Bytes>) {
    forall id :: id in files && files[id].localPath.Some? ==> files[id].localPath.value in content
  }

  /** A non-root parent is an existing folder. */
  ghost predicate ParentsAreFolders(files: map<nat, Doc>) {
    forall id :: id in files && files[id].parentId.Parent? ==>
      files[id].parentId.id in files && files[files[id].parentId.id].docType == Folder
  }

  /** No two users share an email address. */
  ghost predicate EmailsUnique(users: map<nat, User>) {
    forall a, b :: a in users && b in users && users[a].email == users[b].email ==> a == b
  }

  /** The invariant every handler keeps. */
  ghost predicate Wf(st: State) {
    && KindsMatchContent(st.files)
    && ContentPresent(st.files, st.content)
    && ParentsAreFolders(st.files)
    && EmailsUnique(st.users)
  }
}

=== FILE: text.dfy ===
/**
 * The string operations the handlers rely on: `String.prototype.split` on a
 * single character, its inverse `join`, and decimal rendering of a number
 * inside a template literal.
 */
module Text {

  /** Position of the first occurrence of `c` in `s`. */
  function IndexOf(s: string, c: char): (i: nat)
    requires c in s
    ensures i < |s| && s[i] == c
    ensures c !in s[..i]
  {
    if s[0] == c then 0
    else
      assert s == [s[0]] + s[1..];
      var j := IndexOf(s[1..], c);
      assert s[..j + 1] == [s[0]] + s[1..][..j];
      j + 1
  }

  /** The first occurrence of `c` in `a + [c] + b` is the separator itself
      when `a` holds no `c`. */
  lemma {:induction false} IndexOfAfterPrefix(a: string, c: char, b: string)
    requires c !in a
    ensures c in a + [c] + b
    ensures IndexOf(a + [c] + b, c) == |a|
    decreases |a|
  {
    var s := a + [c] + b;
    assert s[|a|] == c;
    if a != [] {
      assert s[0] == a[0];
      assert s[1..] == a[1..] + [c] + b;
      IndexOfAfterPrefix(a[1..], c, b);
    }
  }

  /** An occurrence of `c` inside `a` is found before anything appended. */
  lemma {:induction false} IndexOfInPrefix(a: string, c: char, b: string)
    requires c in a
    ensures c in a + b
    ensures IndexOf(a + b, c) == IndexOf(a, c)
    decreases |a|
  {
    var s := a + b;
    assert s[IndexOf(a, c)] == c;
    if a[0] != c {
      assert a == [a[0]] + a[1..];
      assert s[1..] == a[1..] + b;
      IndexOfInPrefix(a[1..], c, b);
    }
  }

  /** `parts.join(sep)`. */
  function Join(parts: seq<string>, sep: char): string
    requires |parts| >= 1
  {
    if |parts| == 1 then parts[0] else parts[0] + [sep] + Join(parts[1..], sep)
  }

  /** `s.split(sep)`: the maximal separator-free pieces between occurrences of
      `sep`; there is always one more piece than there are separators. */
  function Split(s: string, sep: char): (parts: seq<string>)
    ensures |parts| >= 1
    decreases |s|
  {
    if sep !in s then [s]
    else
      var i := IndexOf(s, sep);
      [s[..i]] + Split(s[i + 1..], sep)
  }

  /** One unfolding of `Split` at the first separator. */
  lemma SplitAt(s: string, sep: char)
    requires sep in s
    ensures var i := IndexOf(s, sep); Split(s, sep) == [s[..i]] + Split(s[i + 1..], sep)
  {
  }

  /** The pieces hold no separator, and joining them gives back the text. */
  lemma {:induction false} JoinSplit(s: string, sep: char)
    ensures forall i :: 0 <= i < |Split(s, sep)| ==> sep !in Split(s, sep)[i]
    ensures Join(Split(s, sep), sep) == s
    decreases |s|
  {
    if sep in s {
      var i := IndexOf(s, sep);
      SplitAt(s, sep);
      JoinSplit(s[i + 1..], sep);
      HeadTail(s[..i], Split(s[i + 1..], sep));
      CutAt(s, i);
    }
  }

  /** A sequence is its prefix, the element at the cut, and its suffix. */
  lemma CutAt<T>(s: seq<T>, i: nat)
    requires i < |s|
    ensures s == s[..i] + [s[i]] + s[i + 1..]
  {
  }

  /** A sequence built from a head and a rest has that head and that rest. */
  lemma HeadTail<T>(x: T, rest: seq<T>)
    ensures ([x] + rest)[0] == x && ([x] + rest)[1..] == rest
  {
  }

  /** The first separator of a join is the one after the first piece. */
  lemma JoinCut(parts: seq<string>, sep: char)
    requires |parts| > 1 && sep !in parts[0]
    ensures var s := Join(parts, sep); var n := |parts[0]|;
            && sep in s && IndexOf(s, sep) == n
            && s[..n] == parts[0] && s[n + 1..] == Join(parts[1..], sep)
  {
    var tail := Join(parts[1..], sep);
    var s := parts[0] + [sep] + tail;
    IndexOfAfterPrefix(parts[0], sep, tail);
    assert s[..|parts[0]|] == parts[0];
    assert s[|parts[0]| + 1..] == tail;
  }

  /** Splitting undoes joining when no piece holds the separator. */
  lemma {:induction false} SplitJoin(parts: seq<string>, sep: char)
    requires |parts| >= 1
    requires forall i :: 0 <= i < |parts| ==> sep !in parts[i]
    ensures Split(Join(parts, sep), sep) == parts
    decreases |parts|
  {
    if |parts| > 1 {
      JoinCut(parts, sep);
      SplitAt(Join(parts, sep), sep);
      SplitJoin(parts[1..], sep);
      CutAt(parts, 0);
    }
  }

  /** `SplitAround` when `a` holds no separator: `a` is the first piece. */
  lemma SplitAroundPlain(a: string, sep: char, b: string)
    requires sep !in a
    ensures Split(a + [sep] + b, sep) == [a] + Split(b, sep)
  {
    var s := a + [sep] + b;
    IndexOfAfterPrefix(a, sep, b);
    assert s[..|a|] == a;
    assert s[|a| + 1..] == b;
  }

  /** Cutting `a + [sep] + b` at a separator inside `a` cuts `a` and keeps the
      rest whole. */
  lemma PrefixCut(a: string, sep: char, b: string)
    requires sep in a
    ensures var s := a + [sep] + b; var i := IndexOf(a, sep);
            && sep in s && IndexOf(s, sep) == i
            && s[..i] == a[..i] && s[i + 1..] == a[i + 1..] + [sep] + b
  {
    var i := IndexOf(a, sep);
    ConcatAssoc(a, [sep], b);
    IndexOfInPrefix(a, sep, [sep] + b);
    CutInPrefix(a, [sep] + b, i);
    ConcatAssoc(a[i + 1..], [sep], b);
  }

  /** Cutting `a + c` inside `a` cuts `a` and keeps all of `c`. */
  lemma CutInPrefix<T>(a: seq<T>, c: seq<T>, i: nat)
    requires i < |a|
    ensures (a + c)[..i] == a[..i]
    ensures (a + c)[i + 1..] == a[i + 1..] + c
  {
  }

  /** One step of `Split` on `a + [sep] + b` when `a` holds a separator: the
      first piece comes from `a`, and the rest is the split of what follows it. */
  lemma SplitAroundStep(a: string, sep: char, b: string)
    requires sep in a
    ensures var i := IndexOf(a, sep);
            Split(a + [sep] + b, sep) == [a[..i]] + Split(a[i + 1..] + [sep] + b, sep)
            && Split(a, sep) == [a[..i]] + Split(a[i + 1..], sep)
  {
    PrefixCut(a, sep, b);
    SplitAt(a + [sep] + b, sep);
    SplitAt(a, sep);
  }

  lemma ConcatAssoc<T>(x: seq<T>, y: seq<T>, z: seq<T>)
    ensures x + (y + z) == (x + y) + z
  {
  }

  /** Splitting distributes over a separator: the pieces of `a + [sep] + b`
      are the pieces of `a` followed by the pieces of `b`. */
  lemma {:induction false} SplitAround(a: string, sep: char, b: string)
    ensures Split(a + [sep] + b, sep) == Split(a, sep) + Split(b, sep)
    decreases |a|
  {
    if sep !in a {
      SplitAroundPlain(a, sep, b);
    } else {
      var i := IndexOf(a, sep);
      var head := [a[..i]];
      SplitAroundStep(a, sep, b);
      SplitAround(a[i + 1..], sep, b);
      ConcatAssoc(head, Split(a[i + 1..], sep), Split(b, sep));
      calc {
        Split(a + [sep] + b, sep);
        head + Split(a[i + 1..] + [sep] + b, sep);
        head + (Split(a[i + 1..], sep) + Split(b, sep));
        (head + Split(a[i + 1..], sep)) + Split(b, sep);
        Split(a, sep) + Split(b, sep);
      }
    }
  }

  /** The text after the last `sep`: `s.split(sep)` at its final index. */
  function LastPiece(s: string, sep: char): (piece: string)
    ensures sep !in piece
  {
    JoinSplit(s, sep);
    var parts := Split(s, sep);
    parts[|parts| - 1]
  }

  /** The final piece of `prefix + [sep] + piece` is `piece` whatever the
      prefix holds. */
  lemma LastPieceOf(prefix: string, sep: char, piece: string)
    requires sep !in piece
    ensures LastPiece(prefix + [sep] + piece, sep) == piece
  {
    SplitAround(prefix, sep, piece);
  }

  /** The decimal digits of `n`, as a template literal renders a number. */
  function Decimal(n: nat): (s: string)
    ensures |s| >= 1
    ensures forall i :: 0 <= i < |s| ==> '0' <= s[i] <= '9'
  {
    if n < 10 then [Digit(n)] else Decimal(n / 10) + [Digit(n % 10)]
  }

  function Digit(d: nat): (c: char)
    requires d < 10
    ensures '0' <= c <= '9'
  {
    ['0', '1', '2', '3', '4', '5', '6', '7', '8', '9'][d]
  }
}

=== FILE: users.dfy ===
/** The users controller: the current user behind a token, and registration. */
module Users {
  import Js
  import opened Options
  import opened Ordering
  import opened Store

  /** `getMe`: the caller's identifier and email, never the password digest. */
  function GetMe(st: State, token: Option<string>): (r: Response)
    ensures r == Unauthorized <==> ResolveUser(st, token).None?
    ensures r != Unauthorized ==>
              && HeaderKey(token) in st.cache
              && var uid := st.cache[HeaderKey(token)].userId;
                 uid in st.users && r == Sent(200, UserInfo(uid, st.users[uid].email))
  {
    match ResolveUser(st, token)
    case None => Unauthorized
    case Some(uid) => Sent(200, UserInfo(uid, st.users[uid].email))
  }

  /** Some user already registered `email` (`countDocuments({ email })`). */
  predicate EmailTaken(users: map<nat, User>, email: Js.Value) {
    exists id :: id in users && users[id].email == email
  }

  /** `postNew`: checks the email, then the password, then that the email is
      unused, and only then stores the email with the password's digest. */
  function PostNew(st: State, o: Oracles, email: Js.Value, password: Js.Value): (out: Outcome)
    ensures !Js.Truthy(email) ==> out == Outcome(Fail(400, "Missing email"), st)
    ensures Js.Truthy(email) && !Js.Truthy(password) ==> out == Outcome(Fail(400, "Missing password"), st)
    ensures Js.Truthy(email) && Js.Truthy(password) && EmailTaken(st.users, email)
            ==> out == Outcome(Fail(400, "Already exist"), st)
    ensures Js.Truthy(email) && Js.Truthy(password) && !EmailTaken(st.users, email) && !password.Str?
            ==> out == Outcome(Unhandled, st)
    ensures !(out.response.Sent? && out.response.status == 201) ==> out.state == st
    ensures out.response.Sent? && out.response.status == 201 <==>
              Js.Truthy(email) && password.Str? && password.s != "" && !EmailTaken(st.users, email)
    ensures out.response.Sent? && out.response.status == 201 ==>
              && password.Str?
              && out.response == Sent(201, UserInfo(FreshId(st.users), email))
              && out.state == st.(users := st.users[FreshId(st.users) := User(email, o.sha1(password.s))])
  {
    if !Js.Truthy(email) then Outcome(Fail(400, "Missing email"), st)
    else if !Js.Truthy(password) then Outcome(Fail(400, "Missing password"), st)
    else if EmailTaken(st.users, email) then Outcome(Fail(400, "Already exist"), st)
    else if !password.Str? then
      // createHash(password) throws on a non-string
      Outcome(Unhandled, st)
    else
      var id := FreshId(st.users);
      Outcome(Sent(201, UserInfo(id, email)), st.(users := st.users[id := User(email, o.sha1(password.s))]))
  }

  /** Registration keeps emails unique (and leaves every other invariant
      alone), so no sequence of registrations creates two users with one
      email. */
  lemma PostNewPreservesWf(st: State, o: Oracles, email: Js.Value, password: Js.Value)
    requires Wf(st)
    ensures Wf(PostNew(st, o, email, password).state)
  {
    var out := PostNew(st, o, email, password);
    if out.state != st {
      var id := FreshId(st.users);
      var users := out.state.users;
      assert users[id].email == email;
      assert forall b :: b in st.users ==> st.users[b].email != email;
      assert forall b :: b in users && b != id ==> users[b] == st.users[b];
    }
  }

  /** Registering the same email twice in a row fails the second time. */
  lemma PostNewTwice(st: State, o: Oracles, email: Js.Value, password: Js.Value, password2: Js.Value)
    requires Js.Truthy(password2)
    requires PostNew(st, o, email, password).response.Sent?
    requires PostNew(st, o, email, password).response.status == 201
    ensures var after := PostNew(st, o, email, password).state;
            PostNew(after, o, email, password2) == Outcome(Fail(400, "Already exist"), after)
  {
    var after := PostNew(st, o, email, password).state;
    var id := FreshId(st.users);
    assert id in after.users && after.users[id].email == email;
  }
}

=== FILE: worker.dfy ===
/**
 * The `makeThumbnail` job processor: validates the payload, looks the image
 * up by identifier and owner, and writes one resized copy per width.
 */
module Worker {
  import Text
  import opened Options
  import opened Store

  /** A job payload; a field is `None` when absent or falsy. */
  datatype JobData = JobData(userId: Option<nat>, fileId: Option<nat>)

  /** A derivative written next to the source image. */
  datatype Thumbnail = Thumbnail(width: nat, path: string, bytes: Bytes)

  /** How the processor's promise settles: resolved with an `Error` value,
      resolved with `null`, or rejected (a resize failed). */
  datatype JobResult = ReturnedError(message: string) | ReturnedNull | Rejected

  /** A processor run: how it settled and the derivatives it wrote, in order. */
  datatype JobRun = JobRun(result: JobResult, written: seq<Thumbnail>)

  /** The thumbnail widths, in the order they are generated. */
  const Widths: seq<nat> := [500, 250, 100]

  /** `${localPath}_${width}`. */
  function DerivativePath(localPath: string, width: nat): string {
    localPath + "_" + Text.Decimal(width)
  }

  /** Resizes the source for each width in turn, keeping the widths whose
      resize succeeded. */
  function Resize(o: Oracles, localPath: string, source: Option<Bytes>, widths: seq<nat>): (written: seq<Thumbnail>)
    ensures |written| <= |widths|
    ensures |written| == |widths| <==>
              widths == [] || (source.Some? && forall i :: 0 <= i < |widths| ==> o.thumbnail(source.value, widths[i]).Some?)
    ensures |written| == |widths| ==>
              forall i :: 0 <= i < |widths| ==>
                written[i] == Thumbnail(widths[i], DerivativePath(localPath, widths[i]),
                                        o.thumbnail(source.value, widths[i]).value)
    ensures forall t :: t in written ==> t.width in widths && t.path == DerivativePath(localPath, t.width)
    ensures forall t :: t in written ==> source.Some? && o.thumbnail(source.value, t.width) == Some(t.bytes)
    ensures source.Some? ==>
              forall i :: 0 <= i < |widths| && o.thumbnail(source.value, widths[i]).Some? ==>
                Thumbnail(widths[i], DerivativePath(localPath, widths[i]), o.thumbnail(source.value, widths[i]).value) in written
    ensures source.None? ==> written == []
  {
    if widths == [] || source.None? then []
    else
      var rest := Resize(o, localPath, source, widths[1..]);
      match o.thumbnail(source.value, widths[0])
      case None => rest
      case Some(b) => [Thumbnail(widths[0], DerivativePath(localPath, widths[0]), b)] + rest
  }

  /** `Resize`'s coverage, stated per width rather than per position. */
  lemma ResizeByWidth(o: Oracles, localPath: string, image: Bytes, widths: seq<nat>)
    ensures var written := Resize(o, localPath, Some(image), widths);
            && (forall w :: w in widths && o.thumbnail(image, w).Some? ==>
                  Thumbnail(w, DerivativePath(localPath, w), o.thumbnail(image, w).value) in written)
            && (|written| == |widths| <==> forall w :: w in widths ==> o.thumbnail(image, w).Some?)
  {
    var written := Resize(o, localPath, Some(image), widths);
    forall w | w in widths && o.thumbnail(image, w).Some?
      ensures Thumbnail(w, DerivativePath(localPath, w), o.thumbnail(image, w).value) in written
    {
      var i :| 0 <= i < |widths| && widths[i] == w;
    }
    if forall w :: w in widths ==> o.thumbnail(image, w).Some? {
      assert forall i :: 0 <= i < |widths| ==> widths[i] in widths;
    }
  }

  /** The job names a file that exists and belongs to the job's user. */
  predicate Found(st: State, job: JobData) {
    job.userId.Some? && job.fileId.Some? && job.fileId.value in st.files
    && st.files[job.fileId.value].userId == job.userId.value
  }

  /** The `makeThumbnail` processor. The files collection is only read. */
  function MakeThumbnail(st: State, o: Oracles, job: JobData): (run: JobRun)
    ensures job.userId.None? ==> run == JobRun(ReturnedError("Missing userId"), [])
    ensures job.userId.Some? && job.fileId.None? ==> run == JobRun(ReturnedError("Missing fieldId"), [])
    ensures job.userId.Some? && job.fileId.Some?
            && (job.fileId.value !in st.files || st.files[job.fileId.value].userId != job.userId.value)
            ==> run == JobRun(ReturnedError("File not found"), [])
    ensures run.written != [] || run.result == ReturnedNull ==>
              && job.userId.Some? && job.fileId.Some?
              && job.fileId.value in st.files
              && st.files[job.fileId.value].userId == job.userId.value
              && st.files[job.fileId.value].localPath.Some?
    ensures run.result == ReturnedNull ==>
              var src := st.files[job.fileId.value].localPath.value;
              && |run.written| == 3
              && run.written[0].width == 500 && run.written[1].width == 250 && run.written[2].width == 100
              && (forall i :: 0 <= i < 3 ==> run.written[i].path == DerivativePath(src, run.written[i].width))
    ensures forall t :: t in run.written ==>
              t.width in Widths && t.path == DerivativePath(st.files[job.fileId.value].localPath.value, t.width)
    ensures forall t :: t in run.written ==>
              var src := st.files[job.fileId.value].localPath.value;
              src in st.content && o.thumbnail(st.content[src], t.width) == Some(t.bytes)
    ensures Found(st, job) ==>
              var d := st.files[job.fileId.value];
              && (run.result == ReturnedNull || run.result == Rejected)
              && (d.localPath.None? || d.localPath.value !in st.content ==> run == JobRun(Rejected, []))
              && (d.localPath.Some? && d.localPath.value in st.content ==>
                    var image := st.content[d.localPath.value];
                    && (forall w :: w in Widths && o.thumbnail(image, w).Some? ==>
                          Thumbnail(w, DerivativePath(d.localPath.value, w), o.thumbnail(image, w).value) in run.written)
                    && (run.result == Rejected <==> exists w :: w in Widths && o.thumbnail(image, w).None?))
  {
    if job.userId.None? then JobRun(ReturnedError("Missing userId"), [])
    else if job.fileId.None? then JobRun(ReturnedError("Missing fieldId"), [])
    else if job.fileId.value !in st.files || st.files[job.fileId.value].userId != job.userId.value then
      JobRun(ReturnedError("File not found"), [])
    else
      match st.files[job.fileId.value].localPath
      case None =>
        // `ImageThumbnail(undefined, …)` rejects, so nothing is written
        JobRun(Rejected, [])
      case Some(p) =>
        if p !in st.content then
          // no image at that path: every resize rejects
          JobRun(Rejected, [])
        else
          var written := Resize(o, p, Some(st.content[p]), Widths);
          ResizeByWidth(o, p, st.content[p], Widths);
          JobRun(if |written| == |Widths| then ReturnedNull else Rejected, written)
  }

  /** A job naming an image its owner stored, whose every resize succeeds,
      resolves with null after writing the three derivatives in order. */
  lemma StoredImageGetsThumbnails(st: State, o: Oracles, userId: nat, fileId: nat)
    requires fileId in st.files && st.files[fileId].userId == userId
    requires st.files[fileId].localPath.Some? && st.files[fileId].localPath.value in st.content
    requires forall w :: w in Widths ==>
               o.thumbnail(st.content[st.files[fileId].localPath.value], w).Some?
    ensures var run := MakeThumbnail(st, o, JobData(Some(userId), Some(fileId)));
            var p := st.files[fileId].localPath.value;
            && run.result == ReturnedNull
            && |run.written| == 3
            && run.written[0].path == DerivativePath(p, 500)
            && run.written[1].path == DerivativePath(p, 250)
            && run.written[2].path == DerivativePath(p, 100)
  {
    var source := st.content[st.files[fileId].localPath.value];
    forall i | 0 <= i < |Widths|
      ensures o.thumbnail(source, Widths[i]).Some?
    {
      assert Widths[i] in Widths;
    }
  }

  /** The content directory after a run's writes. */
  function WriteAll(content: map<string, Bytes>, written: seq<Thumbnail>): (after: map<string, Bytes>)
    ensures forall p :: p in content ==> p in after
    ensures forall t :: t in written ==> t.path in after
    ensures forall p :: p in after && p !in content ==> exists t :: t in written && t.path == p
    ensures forall p :: p in content && (forall t :: t in written ==> t.path != p) ==> after[p] == content[p]
    decreases |written|
  {
    if written == [] then content
    else WriteAll(content[written[0].path := written[0].bytes], written[1..])
  }

  /** A path holds the bytes of the last write to it. */
  lemma {:induction false} WriteAllLastWins(content: map<string, Bytes>, written: seq<Thumbnail>, i: nat)
    requires i < |written|
    requires forall j :: i < j < |written| ==> written[j].path != written[i].path
    ensures WriteAll(content, written)[written[i].path] == written[i].bytes
    decreases |written|
  {
    var tail := written[1..];
    var before := content[written[0].path := written[0].bytes];
    assert WriteAll(content, written) == WriteAll(before, tail);
    if i == 0 {
      var p := written[0].path;
      assert forall t :: t in tail ==> t.path != p by {
        forall t | t in tail
          ensures t.path != p
        {
          var j :| 0 <= j < |tail| && tail[j] == t;
          assert written[j + 1] == t;
        }
      }
      assert p in before && before[p] == written[0].bytes;
    } else {
      assert tail[i - 1] == written[i];
      WriteAllLastWins(before, tail, i - 1);
    }
  }

  /** The decimal renderings of the three widths. */
  lemma WidthTexts()
    ensures Text.Decimal(500) == "500" && Text.Decimal(250) == "250" && Text.Decimal(100) == "100"
  {
    assert Text.Decimal(50) == "50" by { assert Text.Decimal(5) == "5"; }
    assert Text.Decimal(25) == "25" by { assert Text.Decimal(2) == "2"; }
    assert Text.Decimal(10) == "10" by { assert Text.Decimal(1) == "1"; }
  }

  /** The three derivative paths of an image differ from each other and from
      the image's own path, so no write clobbers another or the source. */
  lemma DerivativePathsDistinct(localPath: string, w1: nat, w2: nat)
    requires w1 in Widths && w2 in Widths
    ensures DerivativePath(localPath, w1) != localPath
    ensures w1 != w2 ==> DerivativePath(localPath, w1) != DerivativePath(localPath, w2)
  {
    WidthTexts();
    var p1 := DerivativePath(localPath, w1);
    var p2 := DerivativePath(localPath, w2);
    assert |p1| > |localPath|;
    if w1 != w2 {
      var k := |localPath| + 1;
      assert p1[k] == Text.Decimal(w1)[0];
      assert p2[k] == Text.Decimal(w2)[0];
    }
  }

  /** A run leaves the source image's bytes, and every document, in place. */
  lemma WritesNeverTouchSource(st: State, o: Oracles, job: JobData)
    requires MakeThumbnail(st, o, job).written != []
    ensures var p := st.files[job.fileId.value].localPath.value;
            forall t :: t in MakeThumbnail(st, o, job).written ==> t.path != p
  {
    var p := st.files[job.fileId.value].localPath.value;
    forall t | t in MakeThumbnail(st, o, job).written
      ensures t.path != p
    {
      DerivativePathsDistinct(p, t.width, t.width);
    }
  }

  /** The content directory after a run still holds the source image's bytes
      unchanged. */
  lemma RunKeepsSource(st: State, o: Oracles, job: JobData)
    requires MakeThumbnail(st, o, job).written != []
    ensures var p := st.files[job.fileId.value].localPath.value;
            p in st.content ==> WriteAll(st.content, MakeThumbnail(st, o, job).written)[p] == st.content[p]
  {
    WritesNeverTouchSource(st, o, job);
  }

  /** The last position at or after `i` whose entry writes the same path. */
  lemma LastWriteOf(written: seq<Thumbnail>, i: nat) returns (k: nat)
    requires i < |written|
    ensures i <= k < |written| && written[k].path == written[i].path
    ensures forall j :: k < j < |written| ==> written[j].path != written[k].path
  {
    k := i;
    while k + 1 < |written| && exists j :: k < j < |written| && written[j].path == written[i].path
      invariant i <= k < |written| && written[k].path == written[i].path
      decreases |written| - k
    {
      var j :| k < j < |written| && written[j].path == written[i].path;
      k := j;
    }
  }

  /** After a run's writes, every derivative's path holds that derivative's
      resized bytes: two writes to one path are for one width, so the later
      write carries the same bytes. */
  lemma RunWritesDerivatives(st: State, o: Oracles, job: JobData)
    requires MakeThumbnail(st, o, job).written != []
    ensures var written := MakeThumbnail(st, o, job).written;
            forall t :: t in written ==> WriteAll(st.content, written)[t.path] == t.bytes
  {
    var written := MakeThumbnail(st, o, job).written;
    var p := st.files[job.fileId.value].localPath.value;
    forall t | t in written
      ensures WriteAll(st.content, written)[t.path] == t.bytes
    {
      var i :| 0 <= i < |written| && written[i] == t;
      var k := LastWriteOf(written, i);
      DerivativePathsDistinct(p, written[k].width, t.width);
      assert written[k] in written;
      WriteAllLastWins(st.content, written, k);
    }
  }
}
